=== FILE: README.md ===
# Food Subscription Engine, modelled in Dafny

The plugin adds "subscribe and pick your delivery days" to WooCommerce
products. Its parts:

- **Storefront widget.** A jQuery script behind a *Subscribe* button. It asks
  the server for the unit price and opens a modal with a week view and a month
  view of day buttons. It keeps a sorted list of the chosen `YYYY-MM-DD` days
  and shows the total: unit price × number of days. On *Confirm* it writes the
  days into the product's add-to-cart form as hidden fields, then clicks the
  form's own button.
- **Cart hooks.** One PHP hook stores the posted days on the cart item. A
  second reprices flagged lines to base price × number of days whenever totals
  are computed. A third lists the days under the item as "Delivery Dates".
- **Admin side.** A checkbox enables the feature per product. A method copies
  the days onto the order item as one "Delivery Dates" meta entry, though its
  hook registration names a null object (see "## Left out").

The project models these parts as pure functions over immutable datatypes and
proves their properties. Each Dafny module follows one part of the program:

- `Options` (options.dfy): an `Option` type
- `Strings` (strings.dfy): JavaScript's default string order, `Array.prototype.sort()`, `filter`, `join`, zero-padded decimals
- `Dates` (dates.dfy): Gregorian days, weekdays, the PHP formats `D - jS M` / `D - jS M Y`, the `YYYY-MM-DD` text
- `Json` (json.dfy): `JSON.stringify` of a list of strings and its decoding, PHP arrays
- `Selection` (selection.dfy): the date-button click's edit of `selectedDates`
- `Calendar` (calendar.dfy): `generateWeeklyCalendar`, `generateMonthlyCalendar`, month navigation
- `Forms` (forms.dfy): cart forms, the jQuery form selectors, how PHP builds `$_POST`
- `Widget` (widget.dfy): the widget's handlers in both copies of the script
- `Storefront` (storefront.dfy): the public PHP class: cart item data, repricing, price lookup, cart display, button condition
- `Admin` (admin.dfy): the admin PHP class: product flag, order item meta
- `Flow` (flow.dfy): the parts put together: confirm → POST → cart → price and display

The two copies of the widget script are
`food-subscription-engine/assets/js/food-subscription-engine-public.js` (the
packaged copy) and `assets/js/food-subscription-engine-public.js` (the root
copy). They are identical up to line 225. After that, the root copy differs:

- it checks the currency symbol more strictly;
- it guards against NaN;
- it takes `.first()` of the generic form fallbacks and of the button;
- it also treats `input[name="add-to-cart"]` as the button;
- it appends a second, comma-joined `fse_selected_dates` field;
- it never closes the modal: its only close is a delayed `closeModal()` called without the modal, which throws (`fadeOut` on `undefined`) before anything is closed or removed.

`Widget.Variant` records each of these differences as a flag, and
`Widget.Packaged` and `Widget.Root` are the two settings. A further flag,
`jsonInMarkup`, records how both copies write the JSON dates field (see
Findings). `Widget.PackagedCorrected` and `Widget.RootCorrected` are the
copies with the findings corrected.

Host behaviour enters the model as parameters, not as code:

- `wp_verify_nonce`, `current_user_can`, `wc_get_product` (a catalogue map);
- `json_decode` after `stripslashes`;
- `date_create`;
- the current day;
- the price reply.

`Flow` instantiates the decoding parameter with the model's own JSON decoder
and the date parser with the `YYYY-MM-DD` reader.

Behaviour of the code worth knowing:

- **Form fallback.** The last-resort form lookup in the packaged copy takes
  every `variations_form` (else every cart form); the root copy takes the
  first of them.
- **Comma-joined field.** The root copy's comma-joined field has the same
  name as the JSON one, is appended after it, and so replaces it in `$_POST`.
- **Failed price lookup.** The subscribe handler opens the modal only after a
  successful reply. A failure leaves the widget state as it was.
- **Navigating back.** Months before the current one are blocked only by
  disabling *previous* on the current month itself.
  `Calendar.NavigationStaysCurrentOrLater` proves this is enough when starting
  from the current month or later.
- **Button placement.** The subscribe button is printed on
  `woocommerce_after_add_to_cart_form` (includes/class-food-subscription-engine.php:176),
  after the cart form rather than inside it, so the click finds no
  `variation_id` input (`Flow.ButtonAfterFormPricesParent`).
- **Dates reaching the cart, and repricing twice.** Neither works as written
  (see Findings).

The doc comment at admin/class-fse-admin.php:145 gives "Tue - 3rd Jun 2024" as
an example. 3 June 2024 is a Monday (`Dates.FormatExamples` proves
"Mon - 3rd Jun 2024"). The cart example "Tue - 3rd Jun" at
food-subscription-engine/public/class-fse-public.php:267 fits 3 June 2025.

## Model

| member | source | states |
|---|---|---|
| `Strings.Sort` | food-subscription-engine/assets/js/food-subscription-engine-public.js:223 | `selectedDates.sort()` returns the same strings, each as often, in code-point order, which is JavaScript's order on text in the Basic Multilingual Plane, such as the day texts |
| `Strings.SortedUnique` | food-subscription-engine/assets/js/food-subscription-engine-public.js:223 | two sorted lists holding the same strings are equal, so the sorted order is determined by the contents |
| `Strings.RemoveAll` | food-subscription-engine/assets/js/food-subscription-engine-public.js:214 | `filter(d => d !== dateStr)` removes every copy of the date and keeps every other string with its count |
| `Strings.RemoveAllSorted` | food-subscription-engine/assets/js/food-subscription-engine-public.js:214 | filtering a sorted list leaves it sorted |
| `Dates.IsoRoundTrip` | food-subscription-engine/assets/js/food-subscription-engine-public.js:150 | the `YYYY-MM-DD` text written into `data-date` reads back as the same day |
| `Dates.IsoOrder` | food-subscription-engine/assets/js/food-subscription-engine-public.js:223 | for years 0–9999, the string order `sort()` uses on `YYYY-MM-DD` texts is the calendar order |
| `Dates.WeekdayAddDays` | food-subscription-engine/assets/js/food-subscription-engine-public.js:142 | `getDay()` advances by one, modulo 7, per day |
| `Dates.FormatExamples` | food-subscription-engine/public/class-fse-public.php:267 | `D - jS M` of 3 June 2025 is "Tue - 3rd Jun"; `D - jS M Y` of 3 June 2024 is "Mon - 3rd Jun 2024" and of 21 June 2024 "Fri - 21st Jun 2024" |
| `Json.DecodeEncode` | food-subscription-engine/public/class-fse-public.php:185-188 | decoding the `JSON.stringify` text of any list of strings gives back that list, as a PHP array of the same strings |
| `Selection.Toggle` | food-subscription-engine/assets/js/food-subscription-engine-public.js:213-223 | after a click the list is sorted; a selected date is gone with all its copies and nothing else changes; an unselected one is added once; membership flips for the date only |
| `Selection.ToggleKeepsNoDuplicates` | food-subscription-engine/assets/js/food-subscription-engine-public.js:213-223 | a list without repeats keeps none after a click |
| `Selection.ToggleTwice` | food-subscription-engine/assets/js/food-subscription-engine-public.js:213-223 | clicking the same date twice restores a sorted, repeat-free list |
| `Selection.ToggleExample` | food-subscription-engine/assets/js/food-subscription-engine-public.js:219-223 | choosing 2024-06-05 and then 2024-06-03 gives `["2024-06-03", "2024-06-05"]` |
| `Calendar.WeekStartIsSunday` | food-subscription-engine/assets/js/food-subscription-engine-public.js:142-144 | the week starts on the Sunday on or before today |
| `Calendar.WeekView` | food-subscription-engine/assets/js/food-subscription-engine-public.js:140-163 | seven consecutive days, Sunday to Saturday, today at its weekday; a day is disabled iff it is before today, selected iff its text is in the list |
| `Calendar.MonthGrid` | food-subscription-engine/assets/js/food-subscription-engine-public.js:165-200 | the weekday of the 1st blank cells, then one button per day of the month with its flags; the year and month shown follow `year \|\| now` and `month === undefined` |
| `Calendar.MonthGridAligned` | food-subscription-engine/assets/js/food-subscription-engine-public.js:186-197 | every day lands in its weekday's column |
| `Calendar.NavigationSteps` | assets/js/food-subscription-engine-public.js:176-178 | *previous* goes exactly one month back and *next* one month on, wrapping the year at January and December |
| `Calendar.PrevDisabledOnCurrentMonth` | food-subscription-engine/assets/js/food-subscription-engine-public.js:176 | *previous* is disabled iff the shown month is today's month |
| `Calendar.NavigationStaysCurrentOrLater` | food-subscription-engine/assets/js/food-subscription-engine-public.js:202-206 | from the current month or later, enabled buttons never lead before the current month |
| `Calendar.MonthPastDays` | food-subscription-engine/assets/js/food-subscription-engine-public.js:191-196 | in the current month exactly the days before today are disabled; later months have none disabled, earlier months all |
| `Calendar.ViewsAgree` | food-subscription-engine/assets/js/food-subscription-engine-public.js:153-195 | a day shown in both tabs has the same selected and disabled state in both |
| `Forms.Select` | food-subscription-engine/assets/js/food-subscription-engine-public.js:265 | a selector yields exactly the matching forms, in document order |
| `Forms.PostLastWins` | food-subscription-engine/public/class-fse-public.php:184-185 | when a name occurs more than once in a form, `$_POST` holds its last value |
| `Widget.ClickSubscribe` | food-subscription-engine/assets/js/food-subscription-engine-public.js:96-118 | a form holding a `variation_id` input that is empty or `'0'` gets the select-option alert and no request; otherwise the price request carries the product and the variation read (none for a button outside the cart form) |
| `Widget.OnPriceReply` | food-subscription-engine/assets/js/food-subscription-engine-public.js:119-135 | success opens the modal with the new price and an empty list; failure alerts with the server's non-empty message, otherwise (an empty or missing message, or a failed request) with "Error fetching product price.", and changes nothing else |
| `Widget.SummaryAfterOpen` | food-subscription-engine/assets/js/food-subscription-engine-public.js:124-128 | right after opening, the total shows `--` |
| `Widget.RetryAfterFailure` | food-subscription-engine/assets/js/food-subscription-engine-public.js:129-135 | a failed lookup keeps the list, and clicking again asks again |
| `Widget.ClickDate` | food-subscription-engine/assets/js/food-subscription-engine-public.js:209-225 | a disabled button changes nothing; any other click toggles its `data-date` text |
| `Widget.ClickDateKeepsUpcoming` | food-subscription-engine/assets/js/food-subscription-engine-public.js:153-156 | clicks on rendered buttons never put a day before today into the list |
| `Widget.CurrencySymbol` | assets/js/food-subscription-engine-public.js:238-245 | the symbol is the configured one when accepted, else `$`; never empty; in the root copy never blank and never "undefined" in any case |
| `Widget.SymbolCopiesAgree` | assets/js/food-subscription-engine-public.js:239-245 | the two copies show different symbols iff the configured one is a non-empty blank string or "undefined" in some case |
| `Widget.PriceDisplay` | food-subscription-engine/assets/js/food-subscription-engine-public.js:228-247 | an empty list shows `--`, otherwise symbol and unit price × count; a NaN price shows "Error" in the root copy and "NaN" in the packaged one |
| `Widget.GenericForms` | assets/js/food-subscription-engine-public.js:300-307 | the last-resort lookup takes every `variations_form`, else every cart form; the root copy takes only the first of these; a page with a cart form always yields one |
| `Widget.LocateForms` | food-subscription-engine/assets/js/food-subscription-engine-public.js:265-273 | lookup order: add-to-cart value, then variation id (when truthy), then the generic fallback; empty only on a page without cart forms |
| `Widget.QuotedAttribute` | food-subscription-engine/assets/js/food-subscription-engine-public.js:284 | for text without `&`, the value an HTML parser reads from `value="…"` is the text before the first double quote |
| `Widget.MarkupCutsDates` | food-subscription-engine/assets/js/food-subscription-engine-public.js:284 | as written, both copies post `[` as the dates for any non-empty list, which does not decode |
| `Widget.CorrectedDatesDecode` | food-subscription-engine/assets/js/food-subscription-engine-public.js:284 | with the JSON text as the field's value, the posted dates decode to the list |
| `Widget.InjectFields` | food-subscription-engine/assets/js/food-subscription-engine-public.js:280-285 | after injecting, the custom fields are the dates and the flag, the other fields are kept in order, and injecting again replaces rather than accumulates |
| `Widget.ButtonForms` | assets/js/food-subscription-engine-public.js:328 | the forms clicked are the located ones holding a control the copy's selector matches; in the root copy that includes a hidden `add-to-cart` input, which submits nothing when clicked |
| `Widget.ConfirmedCustomFields` | assets/js/food-subscription-engine-public.js:317-342 | even with the root copy's extra field, exactly one dates field and one flag carry the custom class |
| `Widget.Confirm` | food-subscription-engine/assets/js/food-subscription-engine-public.js:250-297 | no dates, no product id or no cart form: alert and nothing changes; otherwise the located forms are rewritten; the packaged copy clicks every located form with an add-to-cart control, the root copy the first of them; "Could not find Add to Cart button." is shown exactly when there is none; the packaged copy then closes the modal, the root copy leaves it open |
| `Widget.ConfirmInjectsOnce` | assets/js/food-subscription-engine-public.js:317-323 | after a confirm past its checks, every located form has one custom dates field and one flag, and other forms are untouched |
| `Storefront.SaveDatesToCartItem` | food-subscription-engine/public/class-fse-public.php:183-195 | the item changes iff the flag is exactly `'true'` and the dates decode to a non-empty array; it then holds those values and the flag `true` |
| `Storefront.Reprice` | food-subscription-engine/public/class-fse-public.php:203-222 | nothing in an admin non-AJAX request; otherwise lines with dates cost base × count and every other line keeps its price |
| `Storefront.RepriceIdempotent` | food-subscription-engine/public/class-fse-public.php:216-218 | with the price taken from the base price, repricing twice equals repricing once |
| `Storefront.RepriceFromCurrentPrice` | food-subscription-engine/public/class-fse-public.php:216-218 | as written, the new price is the line's current price × count |
| `Storefront.RepriceAgreesOnFreshLines` | food-subscription-engine/public/class-fse-public.php:216-218 | on lines still at their base price the two readings agree |
| `Storefront.RepriceCompounds` | food-subscription-engine/public/class-fse-public.php:216-218 | as written, price 10 with two dates becomes 20 and then 40; from the base price it stays 20 |
| `Storefront.LookupId` | food-subscription-engine/public/class-fse-public.php:239 | the variation id is looked up when non-zero, else the product id |
| `Storefront.GetProductPrice` | food-subscription-engine/public/class-fse-public.php:229-249 | bad nonce ends the request; product id 0 gives "Product ID is missing."; an unknown id "Product not found."; otherwise the price of the looked-up product |
| `Storefront.VariationPriceWins` | food-subscription-engine/public/class-fse-public.php:239-248 | with a variation given, its own price is answered |
| `Storefront.Intval` | food-subscription-engine/public/class-fse-public.php:232-233 | `intval` reads an all-digit text as its number and a text that starts with no space, sign or digit as 0 |
| `Storefront.SubscribeButton` | food-subscription-engine/public/class-fse-public.php:95-108 | the button, carrying the product's id, is shown iff there is a product and its stored flag is exactly `'yes'`; a missing flag shows none |
| `Storefront.ParsedDates` | food-subscription-engine/public/class-fse-public.php:263-269 | unparseable dates are skipped; the result is empty iff none parses |
| `Storefront.ParsedDatesAppend` | food-subscription-engine/public/class-fse-public.php:263-269 | parsing is piecewise, so the parsed days keep the input order |
| `Storefront.DisplayDatesInCart` | food-subscription-engine/public/class-fse-public.php:259-279 | one "Delivery Dates" row, the `D - jS M` days joined by `<br>`, is appended iff the line is flagged and some date parses; otherwise the rows are unchanged |
| `Admin.RequiredCapability` | admin/class-fse-admin.php:111-119 | `edit_product` iff `post_type` is `'product'`, else `edit_post` |
| `Admin.RenderMetaBox` | admin/class-fse-admin.php:74-82 | the checkbox renders checked iff the product's stored flag is exactly `'yes'`; a missing flag renders unchecked |
| `Admin.CheckboxMatchesButton` | admin/class-fse-admin.php:78-82 | the admin checkbox is checked exactly for the products whose page shows the subscribe button |
| `Admin.SaveSubscriptionMeta` | admin/class-fse-admin.php:94-126 | the flag is written iff the nonce is present and valid, it is no autosave and the user has the capability; it is `'yes'` iff the checkbox was posted, else `'no'` |
| `Admin.SaveThenRender` | admin/class-fse-admin.php:78-82 | after an accepted save the box renders checked, and the storefront shows the button, exactly when the checkbox was posted; a rejected save changes neither |
| `Admin.AddUniqueMeta` | admin/class-fse-admin.php:149 | `add_meta_data(…, true)` leaves one entry under the key, the new one, and keeps the other entries |
| `Admin.AddUniqueMetaTwice` | admin/class-fse-admin.php:149 | adding under the key again keeps only the newest value |
| `Admin.AddOrderItemMeta` | admin/class-fse-admin.php:138-154 | the method as written, when invoked: for a flagged line with a parseable date the entry holds the `D - jS M Y` days joined by `, `; otherwise nothing is added |
| `Admin.OrderMetaUnique` | admin/class-fse-admin.php:148-149 | an item that had at most one "Delivery Dates" entry still has at most one afterwards |
| `Admin.OrderMetaExample` | admin/class-fse-admin.php:145 | 2024-06-03 is written as "Mon - 3rd Jun 2024" |
| `Flow.PostedValues` | assets/js/food-subscription-engine-public.js:321-342 | a confirmed form posts the flag `'true'`, and under the dates name the comma-joined text in the root copy, else the dates field |
| `Flow.CorrectedDatesReachCart` | food-subscription-engine/assets/js/food-subscription-engine-public.js:284-291 | with the dates written as the field's value, the cart item stores exactly the chosen dates and the flag |
| `Flow.AsWrittenDatesLost` | assets/js/food-subscription-engine-public.js:333-342 | as written, the cart item is left as it was, for any decoder that, like `json_decode`, decodes neither `[` nor a text starting with a digit to an array |
| `Flow.DecodeJsonRejectsCutDates` | food-subscription-engine/public/class-fse-public.php:185-188 | the model's decoder, like `json_decode`, turns neither `[` nor a text starting with a digit into an array |
| `Flow.CopiesAsWritten` | assets/js/food-subscription-engine-public.js:322-342 | both copies as written lose the dates; the corrected root copy keeps them |
| `Flow.TotalsAgree` | food-subscription-engine/public/class-fse-public.php:216-218 | with the corrected copies the cart charges the line exactly the total the widget showed |
| `Flow.AsWrittenChargesOnce` | food-subscription-engine/public/class-fse-public.php:184-192 | as written, a fresh line is charged its catalogue price once, whatever the number of days |
| `Flow.ToReply` | food-subscription-engine/public/class-fse-public.php:245-248 | a priced product reaches the widget as its number, an error as its message |
| `Flow.IntvalIdText` | food-subscription-engine/public/class-fse-public.php:233 | `intval` reads back the decimal text of any id, so the variation id a form holds reaches the lookup unchanged |
| `Flow.SubscribeOpensWithCatalogPrice` | food-subscription-engine/assets/js/food-subscription-engine-public.js:96-128 | subscribing to a priced product sends a request for that product and opens the modal with the price the server looks up for that very request, and no dates: a simple product's own price, or the price of the variation whose id the enclosing form holds (a case the plugin's own button placement never reaches; see `Flow.ButtonAfterFormPricesParent`) |
| `Flow.ButtonAfterFormPricesParent` | includes/class-food-subscription-engine.php:176 | with the button printed after the cart form, the click raises no variation alert, even with no variation chosen; the request carries no variation, and the server prices the parent product |
| `Flow.UnknownProductAlerts` | food-subscription-engine/public/class-fse-public.php:241-243 | an unknown product shows "Product not found." and leaves the widget as it was |
| `Flow.PricelessProductDisplay` | assets/js/food-subscription-engine-public.js:262-272 | a product without a price shows symbol + "Error" in the root copy and symbol + "NaN" in the packaged one |
| `Flow.StoredDatesParse` | food-subscription-engine/public/class-fse-public.php:263-266 | the stored `YYYY-MM-DD` texts parse back to the chosen days, in order |
| `Flow.ChosenDaysInCart` | food-subscription-engine/public/class-fse-public.php:259-279 | the cart shows one "Delivery Dates" row with the chosen days in order |
| `Flow.ChosenDaysInOrder` | admin/class-fse-admin.php:138-154 | if the order-item method is invoked, the order item holds one "Delivery Dates" entry with the chosen days in order |

## Left out

- The loader, the i18n loader, the HPOS compatibility declaration, the enqueue functions, and the hook registrations are not modelled. Two registrations have behavioural weight. The button's placement after the cart form is modelled through its effect (`Widget.EnclosingVariationInput`). The order-item registration is described in the next line.
- `Admin.AddOrderItemMeta`: as registered, the method probably never runs. includes/class-food-subscription-engine.php:199 hooks `woocommerce_checkout_create_order_line_item` to `$plugin_admin`, which is a local of `define_admin_hooks` (:143) and undefined in `define_public_hooks`. The `FSE_Admin` constructor (admin/class-fse-admin.php:48-49) does not hook it either. The callback is therefore `array(null, 'add_subscription_dates_to_order_item_meta')`: PHP 8 would throw a TypeError when the order is created, and PHP 7 would warn and add no meta. The loader is not part of this model and nothing was executed. The member and `Flow.ChosenDaysInOrder` state what the method does when it is invoked.
- `Widget.ClickSubscribe`: the form's `variation_id` input is a free parameter. On a standard product page, WooCommerce fires `woocommerce_after_add_to_cart_form` after the form's closing tag, so `$button.closest('form.cart')` is empty. The variation check then never fires, every request carries `variation_id` null, and a variable product is priced by its parent (`Flow.ButtonAfterFormPricesParent`). The inside-the-form case is kept for themes that print the hook inside the form. Even there, the model's single `Field.value` stands for both the `value` attribute and the live property. The step-2 selector `input[name="variation_id"][value="…"]` (food-subscription-engine/assets/js/food-subscription-engine-public.js:268) matches the attribute. WooCommerce's variation script sets only the property with `.val()`, so the attribute keeps the template's `0`, and the model may find a form that the browser does not.
- The modal and alert markup, fades, tab switching, `console` logging, and the summary list's `toLocaleDateString` text are presentation only. The model keeps the flags and fields they display.
- The earlier subscribe-click handler (food-subscription-engine/assets/js/food-subscription-engine-public.js:58-75) is left out because the price-fetching handler supersedes it. Both are bound, so on a real page the earlier one opens the modal before the price arrives.
- The root copy's delayed cleanup (assets/js/food-subscription-engine-public.js:351-353) calls `closeModal()` without its modal argument (:26-29), so `fadeOut` on `undefined` throws. The modal stays open, and `datesInput.remove()` never runs, so the unclassed comma-joined field stays in the form. The model records only that this copy does not close the modal (`closesModal` is false). A later confirm on the same page still posts the newest comma-joined field last; the timer and the exception are not modelled.
- A second subscribe click while a price request is in flight is not modelled, because the model has no concurrency. Replies are applied to the state they are given.
- `Dates.Iso`: the day text is the day's own `YYYY-MM-DD`. Time zones are not modelled. The scripts use `toISOString()`, which is UTC.
  - Month buttons are built at local midnight (food-subscription-engine/assets/js/food-subscription-engine-public.js:192-193), so east of UTC every month button carries the previous day's text.
  - Week buttons are built from `new Date()` and keep the current time of day (:141-149). Their text shifts only in the hours between local midnight and the UTC offset east of UTC; west of UTC, late in the day, it moves to the next day.
- `Calendar.ViewsAgree`: holds in the time-zone-free model only. On a real page away from UTC, the two tabs can give the same day different `data-date` texts, and so different selected flags.
- `Widget.ClickDateKeepsUpcoming`: holds in the time-zone-free model only. On a real page east of UTC, today's enabled month button carries yesterday's text, so a past day's text can enter the list.
- `Calendar.MonthGrid`: JavaScript's `new Date(y, …)` maps years 0–99 to 1900–1999. The model uses the year as given.
- `Widget.PriceDisplay`: the total is the exact product `unit price × count` as a real, not `toFixed(2)` text of a binary float. `parseFloat` is abstracted to a number or NaN.
- `Widget.CurrencySymbol`: the root copy's HTML-entity decoding of the symbol is not modelled. Neither is the case of a configured symbol that is not a string.
- `Widget.IsUndefinedWord`: `toLowerCase()` is modelled for ASCII letters only.
- `Json.EncodeStrings`: only `"` and `\` are escaped. Control characters never occur in day texts.
- `Json.DecodeJson`: only the arrays of strings the widget writes are decoded; any other text counts as a decoding error. The cart hook takes `json_decode` as a parameter, so it is not tied to this decoder.
- `Storefront.SaveDatesToCartItem`: POST values are taken after WordPress's slashing and `stripslashes`, which cancel out.
- `Storefront.GetProductPrice`: the ids arrive as integers; `Storefront.Intval` models the `intval` that produces them, and `Flow.Answer` applies it to the widget's request. `price_html` is not modelled.
- `Storefront.Intval`: saturation at PHP's integer bounds and non-decimal forms are not modelled.
- `Storefront.ParsedDates`: `date_create` is a parameter that yields a real day or nothing. Its many accepted formats and the time-zone handling are not modelled.
- `Storefront.Reprice`: the host's `set_price`/`get_price` objects are replaced by the explicit base price and current price of a line.
- `Flow.TotalsAgree`: it assumes that the unit price the widget received equals the line's base price. The widget's price is the view-context `get_price()` (food-subscription-engine/public/class-fse-public.php:246); the cart reads `get_price('edit')` (:216), which skips price filters. With a price filter active, such as a sale or a currency plugin, the two can differ.
- `Strings.LexLe`: compares Unicode code points, while JavaScript's `sort()` compares UTF-16 code units. The two orders agree on text in the Basic Multilingual Plane, including every day text. They differ only when a character above U+FFFF meets one at U+E000 or above.
- `Widget.QuotedAttribute`: models the attribute value of text without `&`. An HTML parser also decodes character references such as `&quot;` and `&amp;`; the JSON of day texts holds none.
- `Widget.ButtonForms`: in the root copy a hidden `input[name="add-to-cart"]` counts as the button, as its selector does. Clicking a hidden input submits nothing, yet `Flow.PostedForm` treats that form as posted; the model does not tell a clickable control from a hidden one.

## Findings

| source | as written | input that shows it | evidently intended | confidence | as-written member | corrected member |
|---|---|---|---|---|---|---|
| food-subscription-engine/assets/js/food-subscription-engine-public.js:284 | the dates field is built as markup with the `JSON.stringify` text pasted between the double quotes of `value="…"`, so the attribute ends at the JSON's first quote (the root copy does the same at its line 322) | selecting `2024-06-03` posts `fse_selected_dates=[`; `json_decode` fails and the cart item is never flagged | the field's value is the JSON text, e.g. set with `.val()` or with the quotes escaped | high; not executed | `Widget.MarkupCutsDates` | `Flow.CorrectedDatesReachCart` |
| assets/js/food-subscription-engine-public.js:333-342 | after the JSON field, a second field of the same name holding the comma-joined dates is appended; PHP keeps the last value of a name, so the cart hook decodes the comma-joined text | selecting `2024-06-03` and `2024-06-05` posts `2024-06-03,2024-06-05` as the dates, which is not JSON | only the JSON field reaches the cart hook | high; not executed | `Flow.AsWrittenDatesLost` | `Flow.CopiesAsWritten` |
| food-subscription-engine/public/class-fse-public.php:216-218 | the base price is read with `get_price('edit')`, which returns the value `set_price` stored on the same product object in an earlier totals pass | totals computed twice in one request for a line at 10 with two dates: 20, then 40 | price = base price × dates on every pass | medium, since it depends on the host computing totals more than once per request; not executed | `Storefront.RepriceCompounds` | `Storefront.RepriceIdempotent` |

=== FILE: admin.dfy ===
/**
 * The admin side: the product's "Enable Subscription" flag (its checkbox
 * and its save guard) and the "Delivery Dates" meta written on each order
 * item at checkout.
 */
module Admin {
  import opened Options
  import opened Strings
  import opened Dates
  import opened Json
  import opened Storefront

  /** `checked($meta, 'yes', false)`: WordPress compares the two as strings, exactly. */
  predicate CheckboxChecked(meta: string) {
    meta == "yes"
  }

  /**
   * `render_subscription_meta_box`: whether the "Enable Subscription"
   * checkbox of product `id` renders checked, from its stored flag (`''`
   * when it has none).
   */
  function RenderMetaBox(enabled: map<int, string>, id: int): (checked: bool)
    ensures checked <==> id in enabled && enabled[id] == "yes"
  {
    CheckboxChecked(PostMeta(enabled, id))
  }

  /** The admin checkbox shows checked exactly for the products whose page shows the subscribe button. */
  lemma CheckboxMatchesButton(enabled: map<int, string>, id: int)
    ensures RenderMetaBox(enabled, id) <==> SubscribeButton(Some(id), enabled) == Some(id)
  {
  }

  /** What the save handler reads from the request. */
  datatype SaveRequest = SaveRequest(
    nonce: Option<string>,    // fse_subscription_meta_box_nonce
    autosave: bool,           // DOING_AUTOSAVE defined and true
    postType: Option<string>, // post_type
    checkboxPresent: bool)    // fse_subscription_enabled is posted

  /** `edit_product` for products, `edit_post` for anything else. */
  function RequiredCapability(postType: Option<string>): (cap: string)
    ensures cap == "edit_product" <==> postType == Some("product")
    ensures cap == "edit_product" || cap == "edit_post"
  {
    if postType == Some("product") then "edit_product" else "edit_post"
  }

  /**
   * `save_subscription_meta_box_data`: the value written to
   * `_fse_subscription_enabled`, or `None` when a guard returns first.
   * `verifyNonce` and `userCan` stand for `wp_verify_nonce` and
   * `current_user_can` on this post.
   */
  function SaveSubscriptionMeta(req: SaveRequest, verifyNonce: string -> bool, userCan: string -> bool): (written: Option<string>)
    ensures written.Some? <==>
      req.nonce.Some? && verifyNonce(req.nonce.value) && !req.autosave && userCan(RequiredCapability(req.postType))
    ensures written.Some? ==> written.value in {"yes", "no"}
    ensures written.Some? ==> (written.value == "yes" <==> req.checkboxPresent)
  {
    if req.nonce.None? then None
    else if !verifyNonce(req.nonce.value) then None
    else if req.autosave then None
    else if !userCan(RequiredCapability(req.postType)) then None
    else Some(if req.checkboxPresent then "yes" else "no")
  }

  /** The meta after a save request. */
  function StoredAfterSave(meta: string, req: SaveRequest, verifyNonce: string -> bool, userCan: string -> bool): string {
    SaveSubscriptionMeta(req, verifyNonce, userCan).GetOr(meta)
  }

  /**
   * After an accepted save, the box re-renders as it was submitted and the
   * storefront shows the button exactly then; a rejected save leaves both
   * as they were.
   */
  lemma SaveThenRender(meta: string, req: SaveRequest, verifyNonce: string -> bool, userCan: string -> bool)
    ensures var stored := StoredAfterSave(meta, req, verifyNonce, userCan);
      && (SaveSubscriptionMeta(req, verifyNonce, userCan).Some? ==>
            CheckboxChecked(stored) == req.checkboxPresent && ShowsSubscribeButton(stored) == req.checkboxPresent)
      && (SaveSubscriptionMeta(req, verifyNonce, userCan).None? ==> stored == meta)
      && CheckboxChecked(stored) == ShowsSubscribeButton(stored)
  {
  }

  // ---------------------------------------------------------------------------
  // Order item meta

  /** One meta entry of an order item. */
  datatype Meta = Meta(key: string, value: string)

  /** The `D - jS M Y` text of each date. */
  function OrderTexts(ds: seq<Date>): (ts: seq<string>)
    requires forall k :: 0 <= k < |ds| ==> Valid(ds[k])
    ensures |ts| == |ds| && forall k :: 0 <= k < |ds| ==> ts[k] == OrderFormat(ds[k])
  {
    seq(|ds|, k requires 0 <= k < |ds| => OrderFormat(ds[k]))
  }

  /** The entries whose key is not `key`, in order. */
  function WithoutKey(meta: seq<Meta>, key: string): (r: seq<Meta>)
    ensures forall i :: 0 <= i < |r| ==> r[i].key != key
    ensures forall m :: m in r <==> m in meta && m.key != key
    ensures |r| <= |meta|
  {
    if |meta| == 0 then []
    else (if meta[0].key == key then [] else [meta[0]]) + WithoutKey(meta[1..], key)
  }

  /** `add_meta_data($key, $value, true)`: any entry under the key is replaced by one. */
  function AddUniqueMeta(meta: seq<Meta>, key: string, value: string): (r: seq<Meta>)
    ensures forall i :: 0 <= i < |r| && r[i].key == key ==> i == |r| - 1
    ensures |r| > 0 && r[|r| - 1] == Meta(key, value)
    ensures forall m: Meta :: m.key != key ==> (m in r <==> m in meta)
  {
    WithoutKey(meta, key) + [Meta(key, value)]
  }

  lemma {:induction false} WithoutKeyIdempotent(meta: seq<Meta>, key: string)
    ensures WithoutKey(WithoutKey(meta, key), key) == WithoutKey(meta, key)
    decreases |meta|
  {
    if |meta| > 0 {
      WithoutKeyIdempotent(meta[1..], key);
      var head := if meta[0].key == key then [] else [meta[0]];
      WithoutKeyAppend(head, WithoutKey(meta[1..], key), key);
    }
  }

  lemma {:induction false} WithoutKeyAppend(a: seq<Meta>, b: seq<Meta>, key: string)
    ensures WithoutKey(a + b, key) == WithoutKey(a, key) + WithoutKey(b, key)
    decreases |a|
  {
    if |a| == 0 {
      assert a + b == b;
    } else {
      assert (a + b)[1..] == a[1..] + b;
      WithoutKeyAppend(a[1..], b, key);
    }
  }

  /** Adding under the same key again keeps only the newest value. */
  lemma AddUniqueMetaTwice(meta: seq<Meta>, key: string, v1: string, v2: string)
    ensures AddUniqueMeta(AddUniqueMeta(meta, key, v1), key, v2) == AddUniqueMeta(meta, key, v2)
  {
    WithoutKeyAppend(WithoutKey(meta, key), [Meta(key, v1)], key);
    WithoutKeyIdempotent(meta, key);
    assert WithoutKey([Meta(key, v1)], key) == [];
  }

  /**
   * `add_subscription_dates_to_order_item_meta`: for a flagged cart line
   * with at least one parseable date, the single "Delivery Dates" entry
   * holds the formatted dates joined by `, `; otherwise the item's meta is
   * left alone.
   */
  function AddOrderItemMeta(meta: seq<Meta>, values: ItemData, parse: Json -> Option<Date>): (r: seq<Meta>)
    requires ParserValid(parse)
    ensures !Flagged(values) ==> r == meta
    ensures Flagged(values) && ParsedDates(values.selectedDates.value, parse) == [] ==> r == meta
    ensures Flagged(values) && ParsedDates(values.selectedDates.value, parse) != [] ==>
      r == AddUniqueMeta(meta, DeliveryDatesLabel,
                         Join(", ", OrderTexts(ParsedDates(values.selectedDates.value, parse))))
  {
    if Flagged(values) then
      var ds := ParsedDates(values.selectedDates.value, parse);
      if ds != [] then AddUniqueMeta(meta, DeliveryDatesLabel, Join(", ", OrderTexts(ds))) else meta
    else meta
  }

  /** However often the hook runs for an item, it holds at most one "Delivery Dates" entry. */
  lemma OrderMetaUnique(meta: seq<Meta>, values: ItemData, parse: Json -> Option<Date>, i: int, j: int)
    requires ParserValid(parse)
    requires forall k, l :: 0 <= k < l < |meta| && meta[k].key == DeliveryDatesLabel ==> meta[l].key != DeliveryDatesLabel
    requires 0 <= i < j < |AddOrderItemMeta(meta, values, parse)|
    ensures AddOrderItemMeta(meta, values, parse)[i].key == DeliveryDatesLabel
            ==> AddOrderItemMeta(meta, values, parse)[j].key != DeliveryDatesLabel
  {
  }

  /** The example of the doc comment, on the day it actually names. */
  lemma OrderMetaExample(parse: Json -> Option<Date>)
    requires ParserValid(parse)
    requires parse(JString("2024-06-03")) == Some(Date(2024, 6, 3))
    ensures AddOrderItemMeta([], ItemData(Some(JBool(true)), Some([JString("2024-06-03")])), parse)
            == [Meta(DeliveryDatesLabel, "Mon - 3rd Jun 2024")]
  {
    var values := [JString("2024-06-03")];
    assert ParsedDates(values, parse) == [Date(2024, 6, 3)] by {
      assert values[1..] == [];
    }
    FormatExamples();
    assert OrderTexts([Date(2024, 6, 3)]) == ["Mon - 3rd Jun 2024"];
  }
}

=== FILE: calendar.dfy ===
/**
 * The two calendar tabs of the subscription modal: the week view (seven
 * buttons from the Sunday on or before today) and the month view (leading
 * blank cells, one button per day, previous/next month buttons).
 */
module Calendar {
  import opened Options
  import opened Dates

  /** JavaScript's 0-based month number (`getMonth()`, `data-month`). */
  type MonthIndex = m: int | 0 <= m < 12

  /** A `.fse-date-selector` button: its `data-date` day, `selected` class and `disabled` attribute. */
  datatype DayButton = DayButton(date: Date, selected: bool, disabled: bool)

  /** How both tabs render a day: selected when its ISO text is in the list, disabled when it is past. */
  function DayButtonFor(d: Date, today: Date, selection: seq<string>): DayButton
    requires Valid(d)
  {
    DayButton(d, Iso(d) in selection, Before(d, today))
  }

  // ---------------------------------------------------------------------------
  // Week view

  function WeekStart(today: Date): (start: Date)
    requires Valid(today)
    ensures Valid(start) && AddDays(start, Weekday(today)) == today
  {
    SubDays(today, Weekday(today))
  }

  lemma WeekStartIsSunday(today: Date)
    requires Valid(today)
    ensures Weekday(WeekStart(today)) == 0
  {
    WeekdayAddDays(WeekStart(today), Weekday(today));
  }

  lemma WeekDayFacts(today: Date, i: nat)
    requires Valid(today) && i < 7
    ensures Weekday(AddDays(WeekStart(today), i)) == i
    ensures Before(AddDays(WeekStart(today), i), today) <==> i < Weekday(today)
  {
    var start := WeekStart(today);
    var w := Weekday(today);
    WeekStartIsSunday(today);
    WeekdayAddDays(start, i);
    if i < w {
      AddDaysIncreasing(start, i, w);
    } else if i > w {
      AddDaysIncreasing(start, w, i);
    }
  }

  /**
   * `generateWeeklyCalendar`: Sunday to Saturday of the current week, each
   * day the one after the previous, today at its weekday's place, and
   * exactly the days before today disabled.
   */
  function WeekView(today: Date, selection: seq<string>): (week: seq<DayButton>)
    requires Valid(today)
    ensures |week| == 7
    ensures forall i :: 0 <= i < 7 ==> Valid(week[i].date) && Weekday(week[i].date) == i
    ensures week[Weekday(today)].date == today
    ensures forall i :: 0 <= i < 6 ==> week[i + 1].date == NextDay(week[i].date)
    ensures forall i :: 0 <= i < 7 ==> (week[i].disabled <==> i < Weekday(today))
    ensures forall i :: 0 <= i < 7 ==> (week[i].disabled <==> Before(week[i].date, today))
    ensures forall i :: 0 <= i < 7 ==> (week[i].selected <==> Iso(week[i].date) in selection)
  {
    var start := WeekStart(today);
    var week := seq(7, i requires 0 <= i < 7 => DayButtonFor(AddDays(start, i), today, selection));
    assert forall i :: 0 <= i < 7 ==> week[i].date == AddDays(start, i);
    forall i | 0 <= i < 6 ensures week[i + 1].date == NextDay(week[i].date) {
      assert AddDays(start, i + 1) == NextDay(AddDays(start, i));
    }
    forall i | 0 <= i < 7
      ensures Weekday(week[i].date) == i && (Before(week[i].date, today) <==> i < Weekday(today))
    {
      WeekDayFacts(today, i);
    }
    week
  }

  // ---------------------------------------------------------------------------
  // Month view

  /** A `.fse-month-nav` button: the `data-year`/`data-month` it leads to and whether it is disabled. */
  datatype NavButton = NavButton(year: int, month: MonthIndex, disabled: bool)

  datatype MonthView = MonthView(
    year: int,
    month: MonthIndex,
    blanks: nat,
    days: seq<DayButton>,
    prev: NavButton,
    next: NavButton)

  /** `year || now.getFullYear()`: a missing year and year 0 both mean this year. */
  function ShownYear(today: Date, yearArg: Option<int>): int {
    if yearArg.None? || yearArg.value == 0 then today.year else yearArg.value
  }

  /** `month === undefined ? now.getMonth() : month`. */
  function ShownMonth(today: Date, monthArg: Option<MonthIndex>): MonthIndex
    requires Valid(today)
  {
    if monthArg.None? then today.month - 1 else monthArg.value
  }

  /** Months counted from January of year 0; consecutive months differ by one. */
  function MonthOrdinal(year: int, month: MonthIndex): int {
    12 * year + month
  }

  function PrevMonthButton(year: int, month: MonthIndex, today: Date): NavButton
    requires Valid(today)
  {
    NavButton(
      if month == 0 then year - 1 else year,
      if month == 0 then 11 else month - 1,
      year == today.year && month == today.month - 1)
  }

  function NextMonthButton(year: int, month: MonthIndex): NavButton {
    NavButton(
      if month == 11 then year + 1 else year,
      if month == 11 then 0 else month + 1,
      false)
  }

  lemma MonthDayWeekday(year: int, month: MonthIndex, k: nat)
    requires k < DaysInMonth(year, month + 1)
    ensures Weekday(Date(year, month + 1, k + 1)) == (Weekday(Date(year, month + 1, 1)) + k) % 7
  {
    assert DayNumber(Date(year, month + 1, k + 1)) == DayNumber(Date(year, month + 1, 1)) + k;
    ModSeven(DayNumber(Date(year, month + 1, 1)) + 1, k);
  }

  /**
   * `generateMonthlyCalendar(year, month)`: one button per day of the shown
   * month, after as many blank cells as put the 1st under its weekday, so
   * that every day sits in its weekday's column.
   */
  function MonthGrid(today: Date, yearArg: Option<int>, monthArg: Option<MonthIndex>, selection: seq<string>): (v: MonthView)
    requires Valid(today)
    ensures v.year == ShownYear(today, yearArg) && v.month == ShownMonth(today, monthArg)
    ensures v.blanks < 7
    ensures |v.days| == DaysInMonth(v.year, v.month + 1)
    ensures forall k :: 0 <= k < |v.days| ==>
      v.days[k].date == Date(v.year, v.month + 1, k + 1) && Valid(v.days[k].date)
    ensures v.blanks == Weekday(Date(v.year, v.month + 1, 1))
    ensures forall k :: 0 <= k < |v.days| ==> (v.days[k].disabled <==> Before(v.days[k].date, today))
    ensures forall k :: 0 <= k < |v.days| ==> (v.days[k].selected <==> Iso(v.days[k].date) in selection)
    ensures v.prev == PrevMonthButton(v.year, v.month, today)
    ensures v.next == NextMonthButton(v.year, v.month)
  {
    var year := ShownYear(today, yearArg);
    var month := ShownMonth(today, monthArg);
    var n := DaysInMonth(year, month + 1);
    var days := seq(n, k requires 0 <= k < n => DayButtonFor(Date(year, month + 1, k + 1), today, selection));
    var blanks := Weekday(Date(year, month + 1, 1));
    MonthView(year, month, blanks, days, PrevMonthButton(year, month, today), NextMonthButton(year, month))
  }

  /** Every day of the month grid sits in its weekday's column (Sunday first). */
  lemma MonthGridAligned(today: Date, yearArg: Option<int>, monthArg: Option<MonthIndex>, selection: seq<string>)
    requires Valid(today)
    ensures var v := MonthGrid(today, yearArg, monthArg, selection);
            forall k :: 0 <= k < |v.days| ==> (v.blanks + k) % 7 == Weekday(v.days[k].date)
  {
    var v := MonthGrid(today, yearArg, monthArg, selection);
    var year: int, month: MonthIndex, blanks: int := v.year, v.month, v.blanks;
    forall k | 0 <= k < |v.days| ensures (blanks + k) % 7 == Weekday(v.days[k].date) {
      assert v.days[k].date == Date(year, month + 1, k + 1);
      MonthDayWeekday(year, month, k);
    }
  }

  /** The month buttons step exactly one month back and forth, wrapping the year. */
  lemma NavigationSteps(year: int, month: MonthIndex, today: Date)
    requires Valid(today)
    ensures MonthOrdinal(PrevMonthButton(year, month, today).year, PrevMonthButton(year, month, today).month)
            == MonthOrdinal(year, month) - 1
    ensures MonthOrdinal(NextMonthButton(year, month).year, NextMonthButton(year, month).month)
            == MonthOrdinal(year, month) + 1
  {
  }

  /** Back is disabled exactly on the current month. */
  lemma PrevDisabledOnCurrentMonth(year: int, month: MonthIndex, today: Date)
    requires Valid(today)
    ensures PrevMonthButton(year, month, today).disabled
            <==> MonthOrdinal(year, month) == MonthOrdinal(today.year, today.month - 1)
  {
  }

  /**
   * Following enabled buttons from the current month or later never shows
   * a month before the current one.
   */
  lemma NavigationStaysCurrentOrLater(year: int, month: MonthIndex, today: Date)
    requires Valid(today)
    requires MonthOrdinal(year, month) >= MonthOrdinal(today.year, today.month - 1)
    ensures var p := PrevMonthButton(year, month, today);
            !p.disabled ==> MonthOrdinal(p.year, p.month) >= MonthOrdinal(today.year, today.month - 1)
    ensures var n := NextMonthButton(year, month);
            MonthOrdinal(n.year, n.month) >= MonthOrdinal(today.year, today.month - 1)
  {
    NavigationSteps(year, month, today);
  }

  /**
   * In the current month exactly the days before today are disabled; in a
   * later month none are; in an earlier month all are.
   */
  lemma MonthPastDays(v: MonthView, today: Date, yearArg: Option<int>, monthArg: Option<MonthIndex>, selection: seq<string>)
    requires Valid(today) && v == MonthGrid(today, yearArg, monthArg, selection)
    ensures MonthOrdinal(v.year, v.month) == MonthOrdinal(today.year, today.month - 1) ==>
      forall k :: 0 <= k < |v.days| ==> (v.days[k].disabled <==> k + 1 < today.day)
    ensures MonthOrdinal(v.year, v.month) > MonthOrdinal(today.year, today.month - 1) ==>
      forall k :: 0 <= k < |v.days| ==> !v.days[k].disabled
    ensures MonthOrdinal(v.year, v.month) < MonthOrdinal(today.year, today.month - 1) ==>
      forall k :: 0 <= k < |v.days| ==> v.days[k].disabled
  {
  }

  /** A day shown in both tabs shows the same selected and disabled state in both. */
  lemma ViewsAgree(today: Date, v: MonthView, yearArg: Option<int>, monthArg: Option<MonthIndex>,
                   selection: seq<string>, i: nat, k: nat)
    requires Valid(today) && i < 7
    requires v == MonthGrid(today, yearArg, monthArg, selection)
    requires k < |v.days| && v.days[k].date == WeekView(today, selection)[i].date
    ensures v.days[k] == WeekView(today, selection)[i]
  {
  }
}

=== FILE: dates.dfy ===
/**
 * Calendar dates as the widget and the order/cart display use them:
 * proleptic Gregorian (year, month 1-12, day), the day after and before,
 * the weekday (0 = Sunday, as JavaScript's `getDay()`), the ISO
 * `YYYY-MM-DD` text `toISOString().split('T')[0]` yields, and PHP's
 * `date_format` patterns `D - jS M` and `D - jS M Y`.
 */
module Dates {
  import opened Options
  import opened Strings

  datatype Date = Date(year: int, month: int, day: int)

  predicate IsLeapYear(y: int) {
    y % 4 == 0 && (y % 100 != 0 || y % 400 == 0)
  }

  function DaysInMonth(y: int, m: int): (n: int)
    requires 1 <= m <= 12
    ensures 28 <= n <= 31
    ensures n == 29 <==> m == 2 && IsLeapYear(y)
  {
    if m == 2 then (if IsLeapYear(y) then 29 else 28)
    else if m == 4 || m == 6 || m == 9 || m == 11 then 30
    else 31
  }

  predicate Valid(d: Date) {
    1 <= d.month <= 12 && 1 <= d.day <= DaysInMonth(d.year, d.month)
  }

  /** `a` is an earlier calendar day than `b`. */
  predicate Before(a: Date, b: Date) {
    a.year < b.year
    || (a.year == b.year && (a.month < b.month || (a.month == b.month && a.day < b.day)))
  }

  /** The calendar day after `d`. */
  function NextDay(d: Date): (r: Date)
    requires Valid(d)
    ensures Valid(r) && Before(d, r)
  {
    if d.day < DaysInMonth(d.year, d.month) then Date(d.year, d.month, d.day + 1)
    else if d.month < 12 then Date(d.year, d.month + 1, 1)
    else Date(d.year + 1, 1, 1)
  }

  /** No valid date lies strictly between a day and the next. */
  lemma NextDayImmediate(d: Date, e: Date)
    requires Valid(d) && Valid(e) && Before(d, e)
    ensures !Before(e, NextDay(d))
  {
  }

  /** The calendar day before `d`. */
  function PrevDay(d: Date): (r: Date)
    requires Valid(d)
    ensures Valid(r) && NextDay(r) == d
  {
    if d.day > 1 then Date(d.year, d.month, d.day - 1)
    else if d.month > 1 then Date(d.year, d.month - 1, DaysInMonth(d.year, d.month - 1))
    else Date(d.year - 1, 12, 31)
  }

  /** `n` days after `d` (JavaScript `setDate(getDate() + n)`). */
  function AddDays(d: Date, n: nat): (r: Date)
    requires Valid(d)
    ensures Valid(r)
    ensures n > 0 ==> Before(d, r)
  {
    if n == 0 then d else NextDay(AddDays(d, n - 1))
  }

  /** `n` days before `d` (JavaScript `setDate(getDate() - n)`). */
  function SubDays(d: Date, n: nat): (r: Date)
    requires Valid(d)
    ensures Valid(r) && AddDays(r, n) == d
  {
    if n == 0 then d
    else
      var p := SubDays(d, n - 1);
      AddDaysShift(PrevDay(p), n - 1);
      PrevDay(p)
  }

  lemma {:induction false} AddDaysShift(d: Date, n: nat)
    requires Valid(d)
    ensures AddDays(d, n + 1) == AddDays(NextDay(d), n)
  {
    if n > 0 {
      AddDaysShift(d, n - 1);
    }
  }

  /** Days later in the walk are strictly later dates. */
  lemma {:induction false} AddDaysIncreasing(d: Date, i: nat, j: nat)
    requires Valid(d) && i < j
    ensures Before(AddDays(d, i), AddDays(d, j))
    decreases j
  {
    if i < j - 1 {
      AddDaysIncreasing(d, i, j - 1);
    }
  }

  // ---------------------------------------------------------------------------
  // Day numbers and weekdays

  /** Days from 0001-01-01 to January 1st of year `y`. */
  function DaysBeforeYear(y: int): int {
    365 * (y - 1) + (y - 1) / 4 - (y - 1) / 100 + (y - 1) / 400
  }

  /** Days from January 1st to the 1st of month `m` of year `y`. */
  function DaysBeforeMonth(y: int, m: int): int
    requires 1 <= m <= 12
  {
    [0, 31, 59, 90, 120, 151, 181, 212, 243, 273, 304, 334][m - 1]
    + (if m > 2 && IsLeapYear(y) then 1 else 0)
  }

  /** Days since 0001-01-01 (day 0, a Monday). */
  function DayNumber(d: Date): int
    requires 1 <= d.month <= 12
  {
    DaysBeforeYear(d.year) + DaysBeforeMonth(d.year, d.month) + d.day - 1
  }

  lemma DivStep4(y: int)
    ensures y / 4 - (y - 1) / 4 == if y % 4 == 0 then 1 else 0
  {
    var q, r := y / 4, y % 4;
    assert y == 4 * q + r && 0 <= r < 4;
    if r == 0 {
      assert y - 1 == 4 * (q - 1) + 3;
    } else {
      assert y - 1 == 4 * q + (r - 1);
    }
  }

  lemma DivStep100(y: int)
    ensures y / 100 - (y - 1) / 100 == if y % 100 == 0 then 1 else 0
  {
    var q, r := y / 100, y % 100;
    assert y == 100 * q + r && 0 <= r < 100;
    if r == 0 {
      assert y - 1 == 100 * (q - 1) + 99;
    } else {
      assert y - 1 == 100 * q + (r - 1);
    }
  }

  lemma DivStep400(y: int)
    ensures y / 400 - (y - 1) / 400 == if y % 400 == 0 then 1 else 0
  {
    var q, r := y / 400, y % 400;
    assert y == 400 * q + r && 0 <= r < 400;
    if r == 0 {
      assert y - 1 == 400 * (q - 1) + 399;
    } else {
      assert y - 1 == 400 * q + (r - 1);
    }
  }

  lemma YearLength(y: int)
    ensures DaysBeforeYear(y + 1) == DaysBeforeYear(y) + if IsLeapYear(y) then 366 else 365
  {
    DivStep4(y);
    DivStep100(y);
    DivStep400(y);
  }

  /** Consecutive calendar days have consecutive day numbers. */
  lemma DayNumberNext(d: Date)
    requires Valid(d)
    ensures DayNumber(NextDay(d)) == DayNumber(d) + 1
  {
    if d.day == DaysInMonth(d.year, d.month) && d.month == 12 {
      YearLength(d.year);
    }
  }

  /** Day of the week, 0 = Sunday ... 6 = Saturday. */
  function Weekday(d: Date): (w: int)
    requires 1 <= d.month <= 12
    ensures 0 <= w < 7
  {
    (DayNumber(d) + 1) % 7
  }

  lemma ModSeven(x: int, k: int)
    ensures (x + k) % 7 == (x % 7 + k) % 7
  {
  }

  lemma WeekdayNext(d: Date)
    requires Valid(d)
    ensures Weekday(NextDay(d)) == (Weekday(d) + 1) % 7
  {
    DayNumberNext(d);
    var x := DayNumber(d) + 1;
    assert Weekday(NextDay(d)) == (x + 1) % 7;
    ModSeven(x, 1);
  }

  lemma {:induction false} WeekdayAddDays(d: Date, n: nat)
    requires Valid(d)
    ensures Weekday(AddDays(d, n)) == (Weekday(d) + n) % 7
  {
    if n > 0 {
      WeekdayAddDays(d, n - 1);
      WeekdayNext(AddDays(d, n - 1));
      ModSeven(Weekday(d) + n - 1, 1);
    }
  }

  // ---------------------------------------------------------------------------
  // Text forms

  /** PHP `D`. */
  function WeekdayAbbrev(w: int): string
    requires 0 <= w < 7
  {
    ["Sun", "Mon", "Tue", "Wed", "Thu", "Fri", "Sat"][w]
  }

  /** PHP `M`. */
  function MonthAbbrev(m: int): string
    requires 1 <= m <= 12
  {
    ["Jan", "Feb", "Mar", "Apr", "May", "Jun", "Jul", "Aug", "Sep", "Oct", "Nov", "Dec"][m - 1]
  }

  /** PHP `S`: English ordinal suffix of a day of the month (10 to 19 take `th`). */
  function OrdinalSuffix(n: nat): string {
    if 10 <= n <= 19 then "th"
    else if n % 10 == 1 then "st"
    else if n % 10 == 2 then "nd"
    else if n % 10 == 3 then "rd"
    else "th"
  }

  /** PHP `Y`: at least four digits, `-` before years before year 0. */
  function YearText(y: int): string {
    (if y < 0 then "-" else "") + Digits(if y < 0 then -y else y, 4)
  }

  /** `date_format($d, 'D - jS M')`, the cart's form. */
  function CartFormat(d: Date): string
    requires Valid(d)
  {
    WeekdayAbbrev(Weekday(d)) + " - " + Digits(d.day, 1) + OrdinalSuffix(d.day) + " " + MonthAbbrev(d.month)
  }

  /** `date_format($d, 'D - jS M Y')`, the order's form. */
  function OrderFormat(d: Date): string
    requires Valid(d)
  {
    CartFormat(d) + " " + YearText(d.year)
  }

  /** The year as `toISOString` writes it: four digits in 0..9999, else signed six. */
  function IsoYear(y: int): string {
    if 0 <= y <= 9999 then Digits(y, 4)
    else (if y < 0 then "-" else "+") + Digits(if y < 0 then -y else y, 6)
  }

  /** The `YYYY-MM-DD` string a calendar button carries in `data-date`. */
  function Iso(d: Date): string
    requires Valid(d)
  {
    IsoYear(d.year) + "-" + Digits(d.month, 2) + "-" + Digits(d.day, 2)
  }

  predicate AllDigits(s: string) {
    forall i :: 0 <= i < |s| ==> IsDigit(s[i])
  }

  /** Reads `YYYY-MM-DD`; anything else, or a day that does not exist, is `None`. */
  function ParseIso(s: string): (r: Option<Date>)
    ensures r.Some? ==> Valid(r.value) && 0 <= r.value.year <= 9999 && Iso(r.value) == s
    ensures r.Some? ==> |s| == 10 && IsDigit(s[0])
  {
    if |s| == 10 && s[4] == '-' && s[7] == '-'
       && AllDigits(s[0..4]) && AllDigits(s[5..7]) && AllDigits(s[8..10]) then
      var d := Date(DigitsValue(s[0..4]), DigitsValue(s[5..7]), DigitsValue(s[8..10]));
      if Valid(d) then
        DigitsValueBound(s[0..4]);
        DigitsCanonical(s[0..4]);
        DigitsCanonical(s[5..7]);
        DigitsCanonical(s[8..10]);
        assert s == s[0..4] + "-" + s[5..7] + "-" + s[8..10];
        Some(d)
      else None
    else None
  }

  lemma IsoParts(d: Date)
    requires Valid(d) && 0 <= d.year <= 9999
    ensures |Digits(d.year, 4)| == 4 && |Digits(d.month, 2)| == 2 && |Digits(d.day, 2)| == 2
  {
    DigitsLength(d.year, 4);
    DigitsLength(d.month, 2);
    DigitsLength(d.day, 2);
  }

  /** Reading back the ISO text of a four-digit-year date gives the date. */
  lemma IsoRoundTrip(d: Date)
    requires Valid(d) && 0 <= d.year <= 9999
    ensures ParseIso(Iso(d)) == Some(d)
  {
    IsoParts(d);
    var s := Iso(d);
    assert s[0..4] == Digits(d.year, 4);
    assert s[5..7] == Digits(d.month, 2);
    assert s[8..10] == Digits(d.day, 2);
    DigitsRoundTrip(d.year, 4);
    DigitsRoundTrip(d.month, 2);
    DigitsRoundTrip(d.day, 2);
  }

  /** Distinct dates have distinct ISO text. */
  lemma IsoInjective(a: Date, b: Date)
    requires Valid(a) && Valid(b) && 0 <= a.year <= 9999 && 0 <= b.year <= 9999
    requires Iso(a) == Iso(b)
    ensures a == b
  {
    IsoRoundTrip(a);
    IsoRoundTrip(b);
  }

  /**
   * For four-digit years, sorting ISO strings as JavaScript does sorts the
   * dates chronologically.
   */
  lemma IsoOrder(a: Date, b: Date)
    requires Valid(a) && Valid(b) && 0 <= a.year <= 9999 && 0 <= b.year <= 9999
    ensures LexLe(Iso(a), Iso(b)) <==> !Before(b, a)
  {
    IsoParts(a);
    IsoParts(b);
    var ya, yb := Digits(a.year, 4), Digits(b.year, 4);
    var ma, mb := Digits(a.month, 2), Digits(b.month, 2);
    var da, db := Digits(a.day, 2), Digits(b.day, 2);
    assert Iso(a) == ya + ("-" + ma + "-" + da);
    assert Iso(b) == yb + ("-" + mb + "-" + db);
    LexLeConcat(ya, "-" + ma + "-" + da, yb, "-" + mb + "-" + db);
    assert "-" + ma + "-" + da == "-" + (ma + ("-" + da));
    assert "-" + mb + "-" + db == "-" + (mb + ("-" + db));
    LexLeConcat("-", ma + ("-" + da), "-", mb + ("-" + db));
    LexLeConcat(ma, "-" + da, mb, "-" + db);
    LexLeConcat("-", da, "-", db);
    DigitsOrder(a.year, b.year, 4);
    DigitsOrder(b.year, a.year, 4);
    DigitsOrder(a.month, b.month, 2);
    DigitsOrder(a.day, b.day, 2);
    DigitsRoundTrip(a.year, 4);
    DigitsRoundTrip(b.year, 4);
    DigitsRoundTrip(a.month, 2);
    DigitsRoundTrip(b.month, 2);
  }

  lemma WeekdayExamples()
    ensures Weekday(Date(2025, 6, 3)) == 2
    ensures Weekday(Date(2024, 6, 3)) == 1
    ensures Weekday(Date(2024, 6, 21)) == 5
  {
    assert DaysBeforeYear(2025) == 739251;
    assert DaysBeforeYear(2024) == 738885;
    assert DayNumber(Date(2025, 6, 3)) == 739404;
    assert DayNumber(Date(2024, 6, 3)) == 739039;
    assert DayNumber(Date(2024, 6, 21)) == 739057;
  }

  lemma DigitsExamples()
    ensures Digits(3, 1) == "3" && Digits(21, 1) == "21"
    ensures Digits(3, 2) == "03" && Digits(6, 2) == "06"
    ensures Digits(2024, 4) == "2024"
  {
    assert Digits(2, 1) == "2";
    assert Digits(0, 1) == "0";
    assert Digits(0, 2) == "00";
    assert Digits(20, 2) == "20";
    assert Digits(202, 3) == "202";
  }

  /**
   * The formats on concrete days. 3 June 2025 is a Tuesday; 3 June 2024,
   * the date of the order-meta comment's example, is a Monday.
   */
  lemma FormatExamples()
    ensures CartFormat(Date(2025, 6, 3)) == "Tue - 3rd Jun"
    ensures OrderFormat(Date(2024, 6, 3)) == "Mon - 3rd Jun 2024"
    ensures OrderFormat(Date(2024, 6, 21)) == "Fri - 21st Jun 2024"
    ensures Iso(Date(2024, 6, 3)) == "2024-06-03"
  {
    WeekdayExamples();
    DigitsExamples();
  }
}

=== FILE: flow.dfy ===
/**
 * The pieces put together: the widget's confirm click posts the form, the
 * cart hook stores what it decodes, the totals hook reprices the line, and
 * the cart shows the dates. The order item shows them too when the
 * order-item method is invoked; its registration names an object that is
 * null where it is made, so the order-item method most likely never runs.
 * The corrected copies carry the chosen dates into the cart; the copies as
 * written lose them.
 */
module Flow {
  import opened Options
  import opened Strings
  import opened Dates
  import opened Json
  import opened Forms
  import opened Widget
  import opened Storefront
  import opened Admin

  /** `date_create` on the values this model stores: ISO date strings. */
  function ParseJsonDate(j: Json): (r: Option<Date>)
    ensures r.Some? ==> Valid(r.value)
    ensures r.Some? ==> j == JString(Iso(r.value))
  {
    if j.JString? then ParseIso(j.s) else None
  }

  lemma ParseJsonDateValid()
    ensures ParserValid(ParseJsonDate)
  {
  }

  /** Every selected string is the ISO text of a day, as the calendars write them. */
  predicate IsoSelection(selection: seq<string>) {
    forall k :: 0 <= k < |selection| ==> ParseIso(selection[k]).Some?
  }

  /** What the add-to-cart request carries for the two fields the cart hook reads. */
  lemma PostedValues(v: Variant, f: CartForm, selection: seq<string>, clicked: bool)
    ensures var post := PostFields(ConfirmedFields(v, f, selection, clicked));
      && FlagKey in post && post[FlagKey] == "true"
      && DatesKey in post
      && post[DatesKey] == if v.csvDatesField && clicked then Join(",", selection) else DatesField(v, selection).value
  {
    var plain := PlainFields(f.fields);
    var fields := ConfirmedFields(v, f, selection, clicked);
    var n := |plain|;
    assert fields[n] == DatesField(v, selection);
    assert fields[n + 1] == FlagField;
    if v.csvDatesField && clicked {
      assert |fields| == n + 3 && fields[n + 2] == CsvDatesField(selection);
      PostLastWins(fields, n + 1);
      PostLastWins(fields, n + 2);
    } else {
      assert |fields| == n + 2;
      PostLastWins(fields, n);
      PostLastWins(fields, n + 1);
    }
  }

  /** The POST of form `i` after a confirm click. */
  function PostedForm(c: Confirmation, i: nat): map<string, string>
    requires i < |c.page|
  {
    PostFields(c.page[i].fields)
  }

  /** The POST a clicked form sends, in terms of the widget's state. */
  lemma ClickedFormPost(v: Variant, s: State, page: seq<CartForm>, i: nat)
    requires i in Confirm(v, s, page).clicked
    ensures |s.selection| > 0 && s.productId != 0 && i < |page|
    ensures var post := PostedForm(Confirm(v, s, page), i);
      && PostedFlag(post) && DatesKey in post
      && post[DatesKey] == if v.csvDatesField then Join(",", s.selection) else DatesField(v, s.selection).value
  {
    var c := Confirm(v, s, page);
    var targets := LocateForms(v, page, s.productId, s.variationId);
    assert i in targets && i < |page|;
    PostedValues(v, page[i], s.selection, true);
  }

  /**
   * With the dates written as the field's value and no comma-joined field,
   * the add-to-cart request stores exactly the chosen dates on the line.
   */
  lemma CorrectedDatesReachCart(v: Variant, s: State, page: seq<CartForm>, i: nat, data: ItemData)
    requires !v.jsonInMarkup && !v.csvDatesField
    requires i in Confirm(v, s, page).clicked
    ensures i < |page|
    ensures SaveDatesToCartItem(data, PostedForm(Confirm(v, s, page), i), DecodeJson)
            == ItemData(Some(JBool(true)), Some(StringsJson(s.selection).items))
  {
    ClickedFormPost(v, s, page, i);
    CorrectedDatesDecode(v, s.selection);
    AcceptedPost(PostedForm(Confirm(v, s, page), i), s.selection, data);
  }

  /**
   * What every `json_decode` does with the two values the copies as written
   * post: `[` is an unterminated array, and a text that starts with a digit
   * can at most be a number. Neither decodes to an array.
   */
  ghost predicate RejectsCutDates(decode: string -> Option<Json>) {
    (decode("[").None? || !IsPhpArray(decode("[").value))
    && forall t: string :: |t| > 0 && IsDigit(t[0]) ==> decode(t).None? || !IsPhpArray(decode(t).value)
  }

  /** The model's own decoder is such a decoder. */
  lemma DecodeJsonRejectsCutDates()
    ensures RejectsCutDates(DecodeJson)
  {
  }

  /**
   * As written, the request reaches the cart hook without decodable dates:
   * the JSON field stops at its first quote, and in the root copy the
   * comma-joined field, posted last, replaces it in `$_POST`. This holds
   * for any decoder that rejects those two shapes, as `json_decode` does.
   */
  lemma AsWrittenDatesLost(v: Variant, s: State, page: seq<CartForm>, i: nat, data: ItemData,
                           decode: string -> Option<Json>)
    requires v.jsonInMarkup || v.csvDatesField
    requires IsoSelection(s.selection)
    requires RejectsCutDates(decode)
    requires i in Confirm(v, s, page).clicked
    ensures i < |page|
    ensures SaveDatesToCartItem(data, PostedForm(Confirm(v, s, page), i), decode) == data
  {
    ClickedFormPost(v, s, page, i);
    PostedDatesUndecodable(v, s.selection, decode);
    RejectedPost(PostedForm(Confirm(v, s, page), i), data, decode);
  }

  /** What the copies as written post under the dates name never decodes to an array. */
  lemma PostedDatesUndecodable(v: Variant, selection: seq<string>, decode: string -> Option<Json>)
    requires v.jsonInMarkup || v.csvDatesField
    requires |selection| > 0 && IsoSelection(selection)
    requires RejectsCutDates(decode)
    ensures var text := if v.csvDatesField then Join(",", selection) else DatesField(v, selection).value;
      decode(text).None? || !IsPhpArray(decode(text).value)
  {
    if v.csvDatesField {
      var text := Join(",", selection);
      JoinStartsWithFirst(",", selection);
      assert ParseIso(selection[0]).Some?;
      assert text[0] == selection[0][0];
    } else {
      MarkupCutsDates(selection);
    }
  }

  /** A POST whose dates do not decode to an array leaves the cart item as it was. */
  lemma RejectedPost(post: map<string, string>, data: ItemData, decode: string -> Option<Json>)
    requires DatesKey in post && (decode(post[DatesKey]).None? || !IsPhpArray(decode(post[DatesKey]).value))
    ensures SaveDatesToCartItem(data, post, decode) == data
  {
  }

  /** A POST carrying the flag and the encoded dates stores them. */
  lemma AcceptedPost(post: map<string, string>, selection: seq<string>, data: ItemData)
    requires |selection| > 0
    requires PostedFlag(post) && DatesKey in post && DecodeJson(post[DatesKey]) == Some(StringsJson(selection))
    ensures SaveDatesToCartItem(data, post, DecodeJson) == ItemData(Some(JBool(true)), Some(StringsJson(selection).items))
    ensures DateCount(SaveDatesToCartItem(data, post, DecodeJson)) == |selection|
  {
  }

  /** Both copies as written lose the dates; both corrected copies keep them. */
  lemma CopiesAsWritten(s: State, page: seq<CartForm>, i: nat, data: ItemData)
    requires IsoSelection(s.selection)
    ensures i in Confirm(Packaged, s, page).clicked ==>
      SaveDatesToCartItem(data, PostedForm(Confirm(Packaged, s, page), i), DecodeJson) == data
    ensures i in Confirm(Root, s, page).clicked ==>
      SaveDatesToCartItem(data, PostedForm(Confirm(Root, s, page), i), DecodeJson) == data
    ensures i in Confirm(RootCorrected, s, page).clicked ==>
      SaveDatesToCartItem(data, PostedForm(Confirm(RootCorrected, s, page), i), DecodeJson).selectedDates
      == Some(StringsJson(s.selection).items)
  {
    DecodeJsonRejectsCutDates();
    if i in Confirm(Packaged, s, page).clicked {
      AsWrittenDatesLost(Packaged, s, page, i, data, DecodeJson);
    }
    if i in Confirm(Root, s, page).clicked {
      AsWrittenDatesLost(Root, s, page, i, data, DecodeJson);
    }
    if i in Confirm(RootCorrected, s, page).clicked {
      CorrectedDatesReachCart(RootCorrected, s, page, i, data);
    }
  }

  /**
   * With the corrected copies, the price the cart charges for the line is
   * the total the widget showed: unit price times the number of dates.
   */
  lemma TotalsAgree(v: Variant, cfg: Config, s: State, page: seq<CartForm>, i: nat,
                    data: ItemData, basePrice: real, price: real, isAdmin: bool, doingAjax: bool)
    requires !v.jsonInMarkup && !v.csvDatesField
    requires s.unitPrice == Num(basePrice)
    requires !(isAdmin && !doingAjax)
    requires i in Confirm(v, s, page).clicked
    ensures i < |page|
    ensures var line := Line(SaveDatesToCartItem(data, PostedForm(Confirm(v, s, page), i), DecodeJson), basePrice, price);
      PriceDisplay(v, cfg, s.unitPrice, |s.selection|)
      == Total(CurrencySymbol(v, cfg.currencySymbol), Reprice(isAdmin, doingAjax, [line])[0].price)
  {
    CorrectedDatesReachCart(v, s, page, i, data);
    LineTotal(v, cfg, s, SaveDatesToCartItem(data, PostedForm(Confirm(v, s, page), i), DecodeJson),
              basePrice, price, isAdmin, doingAjax);
  }

  /** A line holding the encoded selection is repriced to the total the widget shows. */
  lemma LineTotal(v: Variant, cfg: Config, s: State, saved: ItemData, basePrice: real, price: real,
                  isAdmin: bool, doingAjax: bool)
    requires saved == ItemData(Some(JBool(true)), Some(StringsJson(s.selection).items))
    requires s.unitPrice == Num(basePrice) && |s.selection| > 0
    requires !(isAdmin && !doingAjax)
    ensures PriceDisplay(v, cfg, s.unitPrice, |s.selection|)
            == Total(CurrencySymbol(v, cfg.currencySymbol), Reprice(isAdmin, doingAjax, [Line(saved, basePrice, price)])[0].price)
  {
    assert DateCount(saved) == |s.selection|;
    var cart := [Line(saved, basePrice, price)];
    var r := Reprice(isAdmin, doingAjax, cart);
    assert r[0].price == basePrice * (|s.selection| as real);
  }

  /**
   * As written, a fresh line is charged its catalogue price once, whatever
   * the number of dates the widget priced.
   */
  lemma AsWrittenChargesOnce(v: Variant, s: State, page: seq<CartForm>, i: nat,
                             basePrice: real, isAdmin: bool, doingAjax: bool, decode: string -> Option<Json>)
    requires v.jsonInMarkup || v.csvDatesField
    requires IsoSelection(s.selection)
    requires RejectsCutDates(decode)
    requires i in Confirm(v, s, page).clicked
    ensures i < |page|
    ensures var line := Line(SaveDatesToCartItem(NoItemData, PostedForm(Confirm(v, s, page), i), decode), basePrice, basePrice);
      Reprice(isAdmin, doingAjax, [line])[0].price == basePrice
  {
    AsWrittenDatesLost(v, s, page, i, NoItemData, decode);
  }

  // ---------------------------------------------------------------------------
  // The price request and its reply

  /**
   * How the widget sees the server's answer: `parseFloat` of the price (an
   * empty price is NaN), the error message, or a failed request when the
   * nonce check ends it.
   */
  function ToReply(r: PriceResponse): (reply: PriceReply)
    ensures r.PriceSuccess? <==> reply.ReplySuccess?
    ensures r.PriceSuccess? && r.price.Some? ==> reply == ReplySuccess(Num(r.price.value))
    ensures r.PriceError? ==> reply == ReplyFailure(Some(r.message))
  {
    match r
    case PriceSuccess(price) => ReplySuccess(if price.Some? then Num(price.value) else NaN)
    case PriceError(message) => ReplyFailure(Some(message))
    case NonceRejected => TransportError
  }

  /**
   * The variation id the server reads from a price request: `null` (a
   * simple product) posts as an empty value, and `intval` reads that, like
   * any text without digits, as 0.
   */
  function RequestedVariation(variationId: Option<string>): (id: int)
    ensures variationId.None? ==> id == 0
    ensures variationId.Some? ==> id == Intval(variationId.value)
  {
    if variationId.None? then 0 else Intval(variationId.value)
  }

  /** The server's answer to a price request carrying a valid nonce. */
  function Answer(req: PriceRequest, catalog: map<int, Product>): PriceResponse {
    GetProductPrice(true, req.productId, RequestedVariation(req.variationId), catalog)
  }

  /** `intval` reads back the decimal text of an id. */
  lemma IntvalIdText(n: int)
    ensures Intval(IntText(n)) == n
  {
    var m := if n < 0 then -n else n;
    var d := Digits(m, 1);
    DigitsRoundTrip(m, 1);
    LeadingDigitsAll(d);
    if n < 0 {
      assert IntText(n)[1..] == d;
    }
  }

  /**
   * Clicking subscribe on a priced product opens the modal with the
   * catalogue price of what the click asks for, and nothing selected: for a
   * simple product its own price, for a variable one the price of the
   * variation whose id the form holds.
   */
  lemma SubscribeOpensWithCatalogPrice(cfg: Config, s: State, productId: int,
                                       input: VariationInput, catalog: map<int, Product>, p: real)
    requires productId != 0 && VariationChosen(input)
    requires var id := LookupId(productId, RequestedVariation(VariationOf(input)));
      id in catalog && catalog[id].price == Some(p)
    ensures var asked := ClickSubscribe(cfg, s, productId, input);
      && asked.request == Some(PriceRequest(productId, VariationOf(input)))
      && var shown := OnPriceReply(asked.state, ToReply(Answer(asked.request.value, catalog)));
      && shown.alert.None? && shown.state.modalOpen
      && shown.state.unitPrice == Num(p) && shown.state.selection == []
    ensures input.NoVariationInput? ==> productId in catalog && catalog[productId].price == Some(p)
    ensures forall n: int :: n != 0 && input == VariationInput(IntText(n)) ==>
      n in catalog && catalog[n].price == Some(p)
  {
    forall n: int | n != 0 && input == VariationInput(IntText(n))
      ensures n in catalog && catalog[n].price == Some(p)
    {
      IntvalIdText(n);
    }
  }

  /**
   * The plugin places the button after the cart form, outside it. The click
   * then finds no `variation_id` input: even on a variable product with no
   * variation chosen it raises no alert, and the server prices the parent
   * product.
   */
  lemma ButtonAfterFormPricesParent(cfg: Config, s: State, productId: int, formInput: VariationInput,
                                    catalog: map<int, Product>)
    requires productId != 0
    ensures var asked := ClickSubscribe(cfg, s, productId, EnclosingVariationInput(false, formInput));
      && asked.alert.None?
      && asked.request == Some(PriceRequest(productId, None))
      && Answer(asked.request.value, catalog) == GetProductPrice(true, productId, 0, catalog)
      && (productId in catalog ==> Answer(asked.request.value, catalog) == PriceSuccess(catalog[productId].price))
  {
  }

  /**
   * An unknown product never opens the modal: the widget shows the server's
   * "Product not found." and keeps its state.
   */
  lemma UnknownProductAlerts(s: State, productId: int, variation: int, catalog: map<int, Product>)
    requires productId != 0 && LookupId(productId, variation) !in catalog
    ensures OnPriceReply(s, ToReply(GetProductPrice(true, productId, variation, catalog)))
            == Shown(s, Some(NotFoundMessage))
  {
  }

  /**
   * A product without a price reaches the widget as NaN: once a date is
   * chosen the root copy shows the symbol and "Error", the packaged copy
   * "NaN".
   */
  lemma PricelessProductDisplay(cfg: Config, s: State, productId: int, variation: int, catalog: map<int, Product>, count: nat)
    requires productId != 0 && LookupId(productId, variation) in catalog
    requires catalog[LookupId(productId, variation)].price.None?
    requires count > 0
    ensures var shown := OnPriceReply(s, ToReply(GetProductPrice(true, productId, variation, catalog)));
      && PriceDisplay(Root, cfg, shown.state.unitPrice, count) == ErrorTotal(CurrencySymbol(Root, cfg.currencySymbol))
      && PriceDisplay(Packaged, cfg, shown.state.unitPrice, count) == NaNTotal(CurrencySymbol(Packaged, cfg.currencySymbol))
  {
  }

  // ---------------------------------------------------------------------------
  // Showing the dates

  function IsoTexts(ds: seq<Date>): (ts: seq<string>)
    requires forall k :: 0 <= k < |ds| ==> Valid(ds[k])
    ensures |ts| == |ds| && forall k :: 0 <= k < |ds| ==> ts[k] == Iso(ds[k])
  {
    seq(|ds|, k requires 0 <= k < |ds| => Iso(ds[k]))
  }

  /** Reading back the stored ISO texts gives the chosen days, in order. */
  lemma StoredDatesParse(ds: seq<Date>)
    requires forall k :: 0 <= k < |ds| ==> Valid(ds[k]) && 0 <= ds[k].year <= 9999
    ensures ParsedDates(StringsJson(IsoTexts(ds)).items, ParseJsonDate) == ds
  {
    var values := StringsJson(IsoTexts(ds)).items;
    forall k | 0 <= k < |values| ensures ParseJsonDate(values[k]) == Some(ds[k]) {
      IsoRoundTrip(ds[k]);
    }
    ParsedDatesAll(values, ParseJsonDate);
  }

  /**
   * For days chosen in the corrected widget, the cart shows one "Delivery
   * Dates" row with the days in the chosen order.
   */
  lemma ChosenDaysInCart(rows: seq<Entry>, ds: seq<Date>)
    requires |ds| > 0
    requires forall k :: 0 <= k < |ds| ==> Valid(ds[k]) && 0 <= ds[k].year <= 9999
    ensures DisplayDatesInCart(rows, ItemData(Some(JBool(true)), Some(StringsJson(IsoTexts(ds)).items)), ParseJsonDate)
            == rows + [Entry(DeliveryDatesLabel, Join("<br>", CartTexts(ds)), "")]
  {
    StoredDatesParse(ds);
  }

  /**
   * For days chosen in the corrected widget, the order-item method, when
   * invoked, gives one "Delivery Dates" entry with the days in the chosen
   * order.
   */
  lemma ChosenDaysInOrder(meta: seq<Meta>, ds: seq<Date>)
    requires |ds| > 0
    requires forall k :: 0 <= k < |ds| ==> Valid(ds[k]) && 0 <= ds[k].year <= 9999
    ensures AddOrderItemMeta(meta, ItemData(Some(JBool(true)), Some(StringsJson(IsoTexts(ds)).items)), ParseJsonDate)
            == AddUniqueMeta(meta, DeliveryDatesLabel, Join(", ", OrderTexts(ds)))
  {
    StoredDatesParse(ds);
  }
}

=== FILE: forms.dfy ===
/**
 * The product page's `form.cart` elements as the confirm handler sees them:
 * their input fields in document order, whether they are the variable
 * product's `variations_form`, and whether they hold an add-to-cart button;
 * and what PHP receives in `$_POST` when one of them is submitted.
 */
module Forms {
  import opened Strings

  /** An `<input>`: its name, value, and whether it has the class `fse-custom-data-field`. */
  datatype Field = Field(name: string, value: string, custom: bool)

  /**
   * A `form.cart`. `hasButton` says it contains `.single_add_to_cart_button`
   * or `button[name="add-to-cart"]`.
   */
  datatype CartForm = CartForm(variationsForm: bool, fields: seq<Field>, hasButton: bool)

  predicate HasField(f: CartForm, name: string, value: string) {
    exists i :: 0 <= i < |f.fields| && f.fields[i].name == name && f.fields[i].value == value
  }

  predicate HasFieldNamed(f: CartForm, name: string) {
    exists i :: 0 <= i < |f.fields| && f.fields[i].name == name
  }

  /** The selectors the confirm handler tries, each closed over `form.cart`. */
  datatype FormQuery =
    | AddToCartValue(value: string)    // input[name="add-to-cart"][value=...]
    | VariationIdValue(value: string)  // input[name="variation_id"][value=...]
    | VariationsForm                   // form.cart.variations_form
    | AnyCartForm                      // form.cart

  predicate Matches(f: CartForm, q: FormQuery) {
    match q
    case AddToCartValue(v) => HasField(f, "add-to-cart", v)
    case VariationIdValue(v) => HasField(f, "variation_id", v)
    case VariationsForm => f.variationsForm
    case AnyCartForm => true
  }

  ghost predicate Increasing(r: seq<nat>) {
    forall a, b :: 0 <= a < b < |r| ==> r[a] < r[b]
  }

  /** The positions, in document order, of the forms at or after `from` that match. */
  function SelectFrom(page: seq<CartForm>, q: FormQuery, from: nat): (r: seq<nat>)
    requires from <= |page|
    ensures forall i: nat :: i in r <==> from <= i < |page| && Matches(page[i], q)
    ensures Increasing(r)
    decreases |page| - from
  {
    if from == |page| then []
    else
      var rest := SelectFrom(page, q, from + 1);
      forall k | 0 <= k < |rest| ensures rest[k] > from {
        var x: nat := rest[k];
        assert x in rest;
      }
      if Matches(page[from], q) then [from] + rest else rest
  }

  /** jQuery's `$(selector).closest('form.cart')`: every matching form once, in document order. */
  function Select(page: seq<CartForm>, q: FormQuery): (r: seq<nat>)
    ensures forall i: nat :: i in r <==> i < |page| && Matches(page[i], q)
    ensures Increasing(r)
  {
    SelectFrom(page, q, 0)
  }

  /**
   * `$_POST` after the form is submitted: every field name that occurs, and
   * for a repeated name the value of its last occurrence.
   */
  function PostFields(fields: seq<Field>): (post: map<string, string>)
    ensures forall name :: name in post <==> exists i :: 0 <= i < |fields| && fields[i].name == name
  {
    if |fields| == 0 then map[]
    else
      var init := fields[..|fields| - 1];
      var last := fields[|fields| - 1];
      var post := PostFields(init)[last.name := last.value];
      assert forall i :: 0 <= i < |init| ==> init[i] == fields[i];
      post
  }

  /** A field no later field renames is the one PHP keeps. */
  lemma {:induction false} PostLastWins(fields: seq<Field>, i: nat)
    requires i < |fields|
    requires forall j :: i < j < |fields| ==> fields[j].name != fields[i].name
    ensures fields[i].name in PostFields(fields)
    ensures PostFields(fields)[fields[i].name] == fields[i].value
    decreases |fields|
  {
    if i < |fields| - 1 {
      var init := fields[..|fields| - 1];
      PostLastWins(init, i);
    }
  }
}

=== FILE: json.dfy ===
/**
 * The JSON the widget sends and the server reads back: the decoded value
 * shape of PHP's `json_decode($s, true)`, and the exact text
 * `JSON.stringify` produces for a list of date strings, with a decoder for
 * that text.
 */
module Json {
  import opened Options
  import opened Strings

  /** A decoded JSON value; objects keep their members in order. */
  datatype Json =
    | JNull
    | JBool(b: bool)
    | JNumber(n: real)
    | JString(s: string)
    | JArray(items: seq<Json>)
    | JObject(members: seq<(string, Json)>)

  /** PHP's `is_array` on the decoded value: arrays and (associative) objects. */
  predicate IsPhpArray(j: Json) {
    j.JArray? || j.JObject?
  }

  /** The values `foreach` visits and `count` counts in a decoded PHP array. */
  function PhpArrayValues(j: Json): (vs: seq<Json>)
    requires IsPhpArray(j)
    ensures j.JArray? ==> vs == j.items
    ensures j.JObject? ==> |vs| == |j.members| && forall i :: 0 <= i < |vs| ==> vs[i] == j.members[i].1
  {
    match j
    case JArray(items) => items
    case JObject(members) => seq(|members|, i requires 0 <= i < |members| => members[i].1)
  }

  /** A list of strings as a JSON array value. */
  function StringsJson(xs: seq<string>): (j: Json)
    ensures j.JArray? && |j.items| == |xs|
    ensures forall i :: 0 <= i < |xs| ==> j.items[i] == JString(xs[i])
  {
    JArray(seq(|xs|, i requires 0 <= i < |xs| => JString(xs[i])))
  }

  // ---------------------------------------------------------------------------
  // Encoding a list of strings

  /** The characters of a JSON string literal between its quotes. */
  function Escape(s: string): string {
    if |s| == 0 then ""
    else (if s[0] == '"' || s[0] == '\\' then ['\\', s[0]] else [s[0]]) + Escape(s[1..])
  }

  /**
   * The literals of a non-empty list, comma-separated, with the closing
   * bracket: `"a","b"]`.
   */
  function EncodeItems(xs: seq<string>): string
    requires |xs| > 0
  {
    "\"" + (Escape(xs[0]) + ("\"" + (if |xs| == 1 then "]" else "," + EncodeItems(xs[1..]))))
  }

  /** `JSON.stringify(xs)` for a list of strings. */
  function EncodeStrings(xs: seq<string>): string {
    if |xs| == 0 then "[]" else "[" + EncodeItems(xs)
  }

  // ---------------------------------------------------------------------------
  // Decoding

  /**
   * Reads the body of a string literal up to its closing quote; `s` starts
   * just after the opening quote. Gives the content and the text after it.
   */
  function ReadString(s: string): (r: Option<(string, string)>)
    ensures r.Some? ==> |r.value.1| < |s|
    decreases |s|
  {
    if |s| == 0 then None
    else if s[0] == '"' then Some(("", s[1..]))
    else if s[0] == '\\' then
      if |s| >= 2 && (s[1] == '"' || s[1] == '\\') then
        match ReadString(s[2..])
        case Some((c, rest)) => Some(([s[1]] + c, rest))
        case None => None
      else None
    else
      match ReadString(s[1..])
      case Some((c, rest)) => Some(([s[0]] + c, rest))
      case None => None
  }

  /** Reads `"..."(,"...")*]`: one or more string literals and the closing bracket. */
  function ReadItems(s: string): Option<seq<string>>
    decreases |s|
  {
    if |s| == 0 || s[0] != '"' then None
    else
      match ReadString(s[1..])
      case None => None
      case Some((x, rest)) =>
        if rest == "]" then Some([x])
        else if |rest| > 0 && rest[0] == ',' then
          match ReadItems(rest[1..])
          case Some(xs) => Some([x] + xs)
          case None => None
        else None
  }

  /** Decodes a JSON array of strings written without spaces; anything else is `None`. */
  function DecodeStrings(s: string): (r: Option<seq<string>>)
    ensures r.Some? ==> |s| >= 2 && s[0] == '['
  {
    if s == "[]" then Some([])
    else if |s| > 0 && s[0] == '[' then ReadItems(s[1..])
    else None
  }

  /** `json_decode` on the texts this model produces: string arrays or a decoding error. */
  function DecodeJson(s: string): (r: Option<Json>)
    ensures r.Some? ==> r.value.JArray?
  {
    match DecodeStrings(s)
    case Some(xs) => Some(StringsJson(xs))
    case None => None
  }

  lemma {:induction false} ReadEscaped(x: string, rest: string)
    ensures ReadString(Escape(x) + ("\"" + rest)) == Some((x, rest))
    decreases |x|
  {
    if |x| == 0 {
      assert Escape(x) + ("\"" + rest) == "\"" + rest;
    } else {
      ReadEscaped(x[1..], rest);
      var head := if x[0] == '"' || x[0] == '\\' then ['\\', x[0]] else [x[0]];
      var s := Escape(x) + ("\"" + rest);
      assert s == head + (Escape(x[1..]) + ("\"" + rest));
      if x[0] == '"' || x[0] == '\\' {
        assert s[2..] == Escape(x[1..]) + ("\"" + rest);
      } else {
        assert s[1..] == Escape(x[1..]) + ("\"" + rest);
      }
      assert x == [x[0]] + x[1..];
    }
  }

  lemma ReadItemsStep(s: string, x: string, rest: string)
    requires |s| > 0 && s[0] == '"' && ReadString(s[1..]) == Some((x, rest))
    ensures rest == "]" ==> ReadItems(s) == Some([x])
    ensures rest != "]" && |rest| > 0 && rest[0] == ',' && ReadItems(rest[1..]).Some? ==>
      ReadItems(s) == Some([x] + ReadItems(rest[1..]).value)
  {
  }

  lemma {:induction false} ReadEncodedItems(xs: seq<string>)
    requires |xs| > 0
    ensures ReadItems(EncodeItems(xs)) == Some(xs)
    decreases |xs|
  {
    var s := EncodeItems(xs);
    var rest := if |xs| == 1 then "]" else "," + EncodeItems(xs[1..]);
    assert s[1..] == Escape(xs[0]) + ("\"" + rest);
    ReadEscaped(xs[0], rest);
    ReadItemsStep(s, xs[0], rest);
    if |xs| > 1 {
      assert rest[0] == ',' && rest != "]";
      ReadEncodedItems(xs[1..]);
      assert rest[1..] == EncodeItems(xs[1..]);
      assert ReadItems(rest[1..]) == Some(xs[1..]);
      assert ReadItems(s) == Some([xs[0]] + xs[1..]);
      assert xs == [xs[0]] + xs[1..];
    } else {
      assert xs == [xs[0]];
    }
  }

  /** Decoding what `JSON.stringify` wrote gives back the list. */
  lemma DecodeEncode(xs: seq<string>)
    ensures DecodeStrings(EncodeStrings(xs)) == Some(xs)
    ensures DecodeJson(EncodeStrings(xs)) == Some(StringsJson(xs))
  {
    if |xs| > 0 {
      ReadEncodedItems(xs);
      var s := EncodeStrings(xs);
      assert s[1..] == EncodeItems(xs);
      assert s != "[]" by {
        assert s[1] == '"';
      }
    }
  }
}

=== FILE: options.dfy ===
/** The optional-value datatype shared by every module of the model. */
module Options {

  /** `None` stands for PHP's unset key / `null` and JavaScript's `undefined`. */
  datatype Option<+T> = None | Some(value: T) {

    /** The value, or `default` when there is none. */
    function GetOr(default: T): T {
      match this
      case Some(v) => v
      case None => default
    }
  }
}

=== FILE: selection.dfy ===
/**
 * The list of chosen delivery dates and the date-button click that edits
 * it: a selected date is filtered out (every occurrence), an unselected one
 * is pushed, and the list is sorted again either way.
 */
module Selection {
  import opened Strings

  /**
   * The click handler's effect on `selectedDates`. Whether the clicked button
   * carries the `selected` class is decided here by membership: the widget
   * renders and updates that class from the list itself.
   */
  function Toggle(selection: seq<string>, date: string): (r: seq<string>)
    ensures Sorted(r)
    ensures date in selection ==> date !in r && forall x :: x != date ==> multiset(r)[x] == multiset(selection)[x]
    ensures date !in selection ==> multiset(r) == multiset(selection) + multiset{date}
    ensures forall x :: x in r <==> if x == date then date !in selection else x in selection
  {
    if date in selection then
      var kept := RemoveAll(selection, date);
      assert forall x :: x in Sort(kept) <==> x in multiset(kept);
      Sort(kept)
    else
      var r := Sort(selection + [date]);
      assert multiset(selection + [date]) == multiset(selection) + multiset{date};
      assert forall x :: x in r <==> x in multiset(r);
      r
  }

  lemma NoDuplicatesMultiset(s: seq<string>)
    ensures NoDuplicates(s) <==> forall x :: multiset(s)[x] <= 1
  {
    if NoDuplicates(s) {
      forall x ensures multiset(s)[x] <= 1 {
        NoDuplicatesCount(s, x);
      }
    } else {
      var i, j :| 0 <= i < j < |s| && s[i] == s[j];
      assert s == s[..i] + [s[i]] + s[i + 1..j] + [s[j]] + s[j + 1..];
      assert multiset(s)[s[i]] >= 2;
    }
  }

  lemma {:induction false} NoDuplicatesCount(s: seq<string>, x: string)
    requires NoDuplicates(s)
    ensures multiset(s)[x] <= 1
    decreases |s|
  {
    if |s| > 0 {
      assert s == [s[0]] + s[1..];
      NoDuplicatesCount(s[1..], x);
      if s[0] == x {
        assert x !in s[1..];
      }
    }
  }

  /** A list without repeats stays without repeats. */
  lemma ToggleKeepsNoDuplicates(selection: seq<string>, date: string)
    requires NoDuplicates(selection)
    ensures NoDuplicates(Toggle(selection, date))
  {
    var r := Toggle(selection, date);
    NoDuplicatesMultiset(selection);
    NoDuplicatesMultiset(r);
  }

  lemma ToggleRemovesSingle(selection: seq<string>, date: string)
    requires multiset(selection)[date] == 1
    ensures multiset(Toggle(selection, date)) + multiset{date} == multiset(selection)
  {
    assert date in multiset(selection);
    var once := Toggle(selection, date);
    assert multiset(once)[date] == 0;
    forall x ensures (multiset(once) + multiset{date})[x] == multiset(selection)[x] {
    }
  }

  lemma ToggleTwiceSelected(selection: seq<string>, date: string)
    requires Sorted(selection) && multiset(selection)[date] == 1
    ensures multiset(Toggle(Toggle(selection, date), date)) == multiset(selection)
  {
    ToggleRemovesSingle(selection, date);
    var once := Toggle(selection, date);
    assert date !in multiset(once);
    assert multiset(Toggle(once, date)) == multiset(once) + multiset{date};
  }

  lemma ToggleTwiceUnselected(selection: seq<string>, date: string)
    requires Sorted(selection) && date !in selection
    ensures multiset(Toggle(Toggle(selection, date), date)) == multiset(selection)
  {
    var once := Toggle(selection, date);
    assert multiset(once) == multiset(selection) + multiset{date};
    assert date in once;
    var twice := Toggle(once, date);
    forall x ensures multiset(twice)[x] == multiset(selection)[x] {
      if x == date {
        assert x !in twice;
      }
    }
  }

  /** Clicking the same date twice restores a sorted, repeat-free selection. */
  lemma ToggleTwice(selection: seq<string>, date: string)
    requires Sorted(selection) && NoDuplicates(selection)
    ensures Toggle(Toggle(selection, date), date) == selection
  {
    NoDuplicatesMultiset(selection);
    if date in selection {
      assert multiset(selection)[date] == 1;
      ToggleTwiceSelected(selection, date);
    } else {
      ToggleTwiceUnselected(selection, date);
    }
    SortedUnique(Toggle(Toggle(selection, date), date), selection);
  }

  lemma ToggleIntoEmpty(date: string)
    ensures Toggle([], date) == [date]
  {
    var r := Toggle([], date);
    assert multiset(r) == multiset{date};
    SortedUnique(r, [date]);
  }

  lemma ToggleIntoSorted(selection: seq<string>, date: string, expected: seq<string>)
    requires date !in selection
    requires Sorted(expected) && multiset(expected) == multiset(selection) + multiset{date}
    ensures Toggle(selection, date) == expected
  {
    SortedUnique(Toggle(selection, date), expected);
  }

  /** Choosing 5 June and then 3 June lists 3 June first. */
  lemma ToggleExample()
    ensures Toggle(Toggle([], "2024-06-05"), "2024-06-03") == ["2024-06-03", "2024-06-05"]
  {
    ToggleIntoEmpty("2024-06-05");
    var p := "2024-06-0";
    assert "2024-06-03" == p + "3" && "2024-06-05" == p + "5";
    LexLeConcat(p, "3", p, "5");
    LexLeSingle('3', '5');
    var expected := ["2024-06-03", "2024-06-05"];
    assert Sorted(expected);
    assert "2024-06-03" != "2024-06-05" by {
      assert "2024-06-03"[9] != "2024-06-05"[9];
    }
    ToggleIntoSorted(["2024-06-05"], "2024-06-03", expected);
  }
}

=== FILE: storefront.dfy ===
/**
 * The storefront hooks of the plugin's public class, as pure functions over
 * explicit records: saving the posted dates into a cart item, repricing the
 * cart, the price lookup behind the widget's request, the "Delivery Dates"
 * line under a cart item and the condition for the subscribe button.
 */
module Storefront {
  import opened Options
  import opened Strings
  import opened Dates
  import opened Json

  const FlagKey := "fse_is_subscription"
  const DatesKey := "fse_selected_dates"
  const DeliveryDatesLabel := "Delivery Dates"

  /**
   * The two keys of a cart item's data array that the plugin reads and
   * writes. `subscription` is whatever value the key holds; `selectedDates`
   * holds the values of the decoded array, in order.
   */
  datatype ItemData = ItemData(subscription: Option<Json>, selectedDates: Option<seq<Json>>)

  const NoItemData := ItemData(None, None)

  /** `=== true` on the flag and `isset` on the dates. */
  predicate Flagged(d: ItemData) {
    d.subscription == Some(JBool(true)) && d.selectedDates.Some?
  }

  /** `$_POST[FlagKey] === 'true'`, with the key present. */
  predicate PostedFlag(post: map<string, string>) {
    FlagKey in post && post[FlagKey] == "true"
  }

  /**
   * The dates a POST carries: the field decodes (without error) to a PHP
   * array, and the array is not empty.
   */
  predicate PostedDates(post: map<string, string>, decode: string -> Option<Json>) {
    DatesKey in post && decode(post[DatesKey]).Some? && IsPhpArray(decode(post[DatesKey]).value)
    && |PhpArrayValues(decode(post[DatesKey]).value)| > 0
  }

  /**
   * `save_subscription_dates_to_cart_item`. `decode` stands for `json_decode`
   * after `stripslashes`: `None` is a decoding error. The item is changed
   * exactly when the flag is `'true'` and the dates decode to a non-empty
   * array; it then holds those values and the flag `true`.
   */
  function SaveDatesToCartItem(data: ItemData, post: map<string, string>, decode: string -> Option<Json>): (r: ItemData)
    ensures !PostedFlag(post) || !PostedDates(post, decode) ==> r == data
    ensures PostedFlag(post) && PostedDates(post, decode) ==>
      && Flagged(r)
      && r.selectedDates.value == PhpArrayValues(decode(post[DatesKey]).value)
    ensures r != data ==> Flagged(r) && |r.selectedDates.value| > 0
  {
    if PostedFlag(post) && DatesKey in post then
      var decoded := decode(post[DatesKey]);
      if decoded.Some? && IsPhpArray(decoded.value) && |PhpArrayValues(decoded.value)| > 0 then
        ItemData(Some(JBool(true)), Some(PhpArrayValues(decoded.value)))
      else data
    else data
  }

  // ---------------------------------------------------------------------------
  // Repricing

  /**
   * A cart line: its item data, the product's base price (what the catalogue
   * says) and the price the line currently carries.
   */
  datatype Line = Line(data: ItemData, basePrice: real, price: real)

  /** The number of dates of a line the repricing applies to, else 0. */
  function DateCount(d: ItemData): (n: nat)
    ensures n > 0 ==> Flagged(d) && n == |d.selectedDates.value|
    ensures Flagged(d) ==> n == |d.selectedDates.value|
    ensures !Flagged(d) ==> n == 0
  {
    if Flagged(d) then |d.selectedDates.value| else 0
  }

  /** The price a line gets: base price times dates, for lines that have dates. */
  function RepriceLine(l: Line): (r: Line)
    ensures r.data == l.data && r.basePrice == l.basePrice
    ensures DateCount(l.data) > 0 ==> r.price == l.basePrice * (DateCount(l.data) as real)
    ensures DateCount(l.data) == 0 ==> r == l
  {
    var n := DateCount(l.data);
    if n > 0 then l.(price := l.basePrice * (n as real)) else l
  }

  /**
   * `calculate_subscription_price`, with the product's price taken from the
   * base price: nothing in an admin request that is not AJAX; otherwise
   * every line with dates is repriced and every other line kept.
   */
  function Reprice(isAdmin: bool, doingAjax: bool, cart: seq<Line>): (r: seq<Line>)
    ensures |r| == |cart|
    ensures isAdmin && !doingAjax ==> r == cart
    ensures forall i :: 0 <= i < |cart| ==> r[i].data == cart[i].data && r[i].basePrice == cart[i].basePrice
    ensures !(isAdmin && !doingAjax) ==> forall i :: 0 <= i < |cart| ==>
      r[i].price == if DateCount(cart[i].data) > 0 then cart[i].basePrice * (DateCount(cart[i].data) as real) else cart[i].price
  {
    if isAdmin && !doingAjax then cart
    else seq(|cart|, i requires 0 <= i < |cart| => RepriceLine(cart[i]))
  }

  /** Computing the totals again changes nothing: the price comes from the base price. */
  lemma RepriceIdempotent(isAdmin: bool, doingAjax: bool, cart: seq<Line>)
    ensures Reprice(isAdmin, doingAjax, Reprice(isAdmin, doingAjax, cart)) == Reprice(isAdmin, doingAjax, cart)
  {
    var once := Reprice(isAdmin, doingAjax, cart);
    var twice := Reprice(isAdmin, doingAjax, once);
    assert |twice| == |once|;
    forall i | 0 <= i < |once| ensures twice[i] == once[i] {
    }
  }

  /**
   * The hook as written: the product price read back is the one the line
   * currently carries, which an earlier pass over the totals has already
   * multiplied.
   */
  function RepriceFromCurrentPrice(isAdmin: bool, doingAjax: bool, cart: seq<Line>): (r: seq<Line>)
    ensures |r| == |cart|
    ensures isAdmin && !doingAjax ==> r == cart
    ensures !(isAdmin && !doingAjax) ==> forall i :: 0 <= i < |cart| ==>
      r[i].price == if DateCount(cart[i].data) > 0 then cart[i].price * (DateCount(cart[i].data) as real) else cart[i].price
  {
    if isAdmin && !doingAjax then cart
    else seq(|cart|, i requires 0 <= i < |cart| => MultiplyCurrent(cart[i]))
  }

  /** One line as the hook reprices it: its current price times its dates. */
  function MultiplyCurrent(l: Line): (r: Line)
    ensures r.data == l.data && r.basePrice == l.basePrice
    ensures DateCount(l.data) > 0 ==> r.price == l.price * (DateCount(l.data) as real)
    ensures DateCount(l.data) == 0 ==> r == l
  {
    var n := DateCount(l.data);
    if n > 0 then l.(price := l.price * (n as real)) else l
  }

  /** On lines still at their base price, the two readings agree. */
  lemma RepriceAgreesOnFreshLines(isAdmin: bool, doingAjax: bool, cart: seq<Line>)
    requires forall i :: 0 <= i < |cart| ==> cart[i].price == cart[i].basePrice
    ensures RepriceFromCurrentPrice(isAdmin, doingAjax, cart) == Reprice(isAdmin, doingAjax, cart)
  {
    var asWritten := RepriceFromCurrentPrice(isAdmin, doingAjax, cart);
    var corrected := Reprice(isAdmin, doingAjax, cart);
    forall i | 0 <= i < |cart| ensures asWritten[i] == corrected[i] {
    }
  }

  /** A line of price 10 with two dates: 20 after one pass, 40 after a second. */
  lemma RepriceCompounds()
    ensures var line := Line(ItemData(Some(JBool(true)), Some([JString("2024-06-03"), JString("2024-06-04")])), 10.0, 10.0);
      && RepriceFromCurrentPrice(false, false, [line])[0].price == 20.0
      && RepriceFromCurrentPrice(false, false, RepriceFromCurrentPrice(false, false, [line]))[0].price == 40.0
      && Reprice(false, false, Reprice(false, false, [line]))[0].price == 20.0
  {
    var line := Line(ItemData(Some(JBool(true)), Some([JString("2024-06-03"), JString("2024-06-04")])), 10.0, 10.0);
    assert DateCount(line.data) == 2;
    var once := RepriceFromCurrentPrice(false, false, [line]);
    assert once[0].price == 20.0;
    assert DateCount(once[0].data) == 2;
    RepriceIdempotent(false, false, [line]);
  }

  // ---------------------------------------------------------------------------
  // The price lookup

  /** A catalogue product; `price` is `None` when the product has no price (`''`). */
  datatype Product = Product(price: Option<real>)

  datatype PriceResponse =
    | PriceSuccess(price: Option<real>)
    | PriceError(message: string)
    | NonceRejected                    // check_ajax_referer ends the request

  const MissingIdMessage := "Product ID is missing."
  const NotFoundMessage := "Product not found."

  /** The id looked up: the variation when one is given, else the product. */
  function LookupId(productId: int, variationId: int): (id: int)
    ensures id == productId || id == variationId
    ensures variationId != 0 ==> id == variationId
    ensures id != 0 <==> productId != 0 || variationId != 0
  {
    if variationId != 0 then variationId else productId
  }

  /**
   * `ajax_get_product_price`. The posted ids are already integers (absent
   * is 0); `catalog` stands for `wc_get_product`.
   */
  function GetProductPrice(nonceOk: bool, productId: int, variationId: int, catalog: map<int, Product>): (r: PriceResponse)
    ensures !nonceOk <==> r == NonceRejected
    ensures nonceOk && productId == 0 ==> r == PriceError(MissingIdMessage)
    ensures nonceOk && productId != 0 ==>
      (LookupId(productId, variationId) in catalog <==> r.PriceSuccess?)
    ensures r.PriceSuccess? ==> r.price == catalog[LookupId(productId, variationId)].price
    ensures nonceOk && productId != 0 && LookupId(productId, variationId) !in catalog ==> r == PriceError(NotFoundMessage)
  {
    if !nonceOk then NonceRejected
    else if productId == 0 then PriceError(MissingIdMessage)
    else
      var id := LookupId(productId, variationId);
      if id in catalog then PriceSuccess(catalog[id].price) else PriceError(NotFoundMessage)
  }

  /** With a variation given, the variation's own price is answered, never the parent's. */
  lemma VariationPriceWins(productId: int, variationId: int, catalog: map<int, Product>)
    requires productId != 0 && variationId != 0 && variationId in catalog
    ensures GetProductPrice(true, productId, variationId, catalog) == PriceSuccess(catalog[variationId].price)
  {
  }

  /** The characters PHP skips before a number: space, tab, newline, carriage return, vertical tab, form feed. */
  predicate IsIntSpace(c: char) {
    c == ' ' || c == '\t' || c == '\n' || c == '\r' || c == '\U{000B}' || c == '\U{000C}'
  }

  /** The longest prefix of `s` made of decimal digits. */
  function LeadingDigits(s: string): (d: string)
    ensures d <= s
    ensures forall i :: 0 <= i < |d| ==> IsDigit(d[i])
    ensures |d| < |s| ==> !IsDigit(s[|d|])
  {
    if |s| == 0 || !IsDigit(s[0]) then "" else [s[0]] + LeadingDigits(s[1..])
  }

  /**
   * PHP's `intval` on a request string: leading white space is skipped,
   * then an optional sign and the longest run of decimal digits are read;
   * a string without such digits is 0. (Saturation at the platform's
   * integer bounds is not modelled.)
   */
  function Intval(s: string): (n: int)
    ensures (|s| > 0 && forall i :: 0 <= i < |s| ==> IsDigit(s[i])) ==> n == DigitsValue(s)
    ensures (|s| == 0 || !(IsIntSpace(s[0]) || IsDigit(s[0]) || s[0] == '-' || s[0] == '+')) ==> n == 0
    decreases |s|
  {
    if |s| > 0 && IsIntSpace(s[0]) then Intval(s[1..])
    else if |s| > 0 && s[0] == '-' then -(DigitsValue(LeadingDigits(s[1..])) as int)
    else if |s| > 0 && s[0] == '+' then DigitsValue(LeadingDigits(s[1..]))
    else
      assert (forall i :: 0 <= i < |s| ==> IsDigit(s[i])) ==> LeadingDigits(s) == s;
      DigitsValue(LeadingDigits(s))
  }

  /** An all-digit string is read whole. */
  lemma {:induction false} LeadingDigitsAll(s: string)
    requires forall i :: 0 <= i < |s| ==> IsDigit(s[i])
    ensures LeadingDigits(s) == s
    decreases |s|
  {
    if |s| > 0 {
      LeadingDigitsAll(s[1..]);
    }
  }

  // ---------------------------------------------------------------------------
  // Delivery dates under a cart item

  /** `date_create` always yields a real calendar day. */
  ghost predicate ParserValid(parse: Json -> Option<Date>) {
    forall j :: parse(j).Some? ==> Valid(parse(j).value)
  }

  /** The dates `date_create` accepts, in input order; the rest are skipped. */
  function ParsedDates(values: seq<Json>, parse: Json -> Option<Date>): (ds: seq<Date>)
    requires ParserValid(parse)
    ensures |ds| <= |values|
    ensures forall k :: 0 <= k < |ds| ==> Valid(ds[k])
    ensures ds == [] <==> forall i :: 0 <= i < |values| ==> parse(values[i]).None?
  {
    if |values| == 0 then []
    else
      var rest := ParsedDates(values[1..], parse);
      assert forall i :: 1 <= i < |values| ==> values[i] == values[1..][i - 1];
      match parse(values[0])
      case Some(d) => [d] + rest
      case None => rest
  }

  /** Skipping unparseable dates works piece by piece and keeps the order. */
  lemma {:induction false} ParsedDatesAppend(a: seq<Json>, b: seq<Json>, parse: Json -> Option<Date>)
    requires ParserValid(parse)
    ensures ParsedDates(a + b, parse) == ParsedDates(a, parse) + ParsedDates(b, parse)
    decreases |a|
  {
    if |a| == 0 {
      assert a + b == b;
    } else {
      assert (a + b)[1..] == a[1..] + b;
      ParsedDatesAppend(a[1..], b, parse);
    }
  }

  /** When every value parses, the dates are exactly the parsed values. */
  lemma {:induction false} ParsedDatesAll(values: seq<Json>, parse: Json -> Option<Date>)
    requires ParserValid(parse)
    requires forall i :: 0 <= i < |values| ==> parse(values[i]).Some?
    ensures |ParsedDates(values, parse)| == |values|
    ensures forall i :: 0 <= i < |values| ==> ParsedDates(values, parse)[i] == parse(values[i]).value
    decreases |values|
  {
    if |values| > 0 {
      ParsedDatesAll(values[1..], parse);
    }
  }

  /** The `D - jS M` text of each date. */
  function CartTexts(ds: seq<Date>): (ts: seq<string>)
    requires forall k :: 0 <= k < |ds| ==> Valid(ds[k])
    ensures |ts| == |ds| && forall k :: 0 <= k < |ds| ==> ts[k] == CartFormat(ds[k])
  {
    seq(|ds|, k requires 0 <= k < |ds| => CartFormat(ds[k]))
  }

  /** One row of the item data WooCommerce lists under a cart item. */
  datatype Entry = Entry(key: string, value: string, display: string)

  /**
   * `display_subscription_dates_in_cart`: one "Delivery Dates" row, the
   * formatted dates joined by `<br>`, when the line is flagged and some
   * date parses; otherwise the rows are returned unchanged.
   */
  function DisplayDatesInCart(rows: seq<Entry>, item: ItemData, parse: Json -> Option<Date>): (r: seq<Entry>)
    requires ParserValid(parse)
    ensures |r| == |rows| || |r| == |rows| + 1
    ensures r[..|rows|] == rows
    ensures |r| == |rows| + 1 <==> Flagged(item) && ParsedDates(item.selectedDates.value, parse) != []
    ensures |r| == |rows| + 1 ==>
      r[|rows|] == Entry(DeliveryDatesLabel, Join("<br>", CartTexts(ParsedDates(item.selectedDates.value, parse))), "")
  {
    if Flagged(item) then
      var ds := ParsedDates(item.selectedDates.value, parse);
      if ds != [] then
        assert (rows + [Entry(DeliveryDatesLabel, Join("<br>", CartTexts(ds)), "")])[..|rows|] == rows;
        rows + [Entry(DeliveryDatesLabel, Join("<br>", CartTexts(ds)), "")]
      else rows
    else rows
  }

  // ---------------------------------------------------------------------------
  // The subscribe button

  /** The strict test `'yes' === …` on the `_fse_subscription_enabled` meta. */
  predicate ShowsSubscribeButton(meta: string) {
    meta == "yes"
  }

  /** `get_post_meta(…, true)`: the stored value, or `''` when the product has none. */
  function PostMeta(meta: map<int, string>, id: int): string {
    if id in meta then meta[id] else ""
  }

  /**
   * `display_subscribe_button`: for the current product, the button (its
   * `data-product-id`) when the product's flag is stored as exactly
   * `'yes'`; nothing without a product, without the flag, or for any other
   * value such as `'no'`, `'Yes'` or `'1'`.
   */
  function SubscribeButton(product: Option<int>, enabled: map<int, string>): (button: Option<int>)
    ensures button.Some? <==> product.Some? && product.value in enabled && enabled[product.value] == "yes"
    ensures button.Some? ==> button == product
  {
    if product.Some? && ShowsSubscribeButton(PostMeta(enabled, product.value)) then product else None
  }
}

=== FILE: strings.dfy ===
/**
 * Strings as JavaScript and PHP see them in this plugin: code-point order
 * (the order `Array.prototype.sort()` uses, on text in the Basic
 * Multilingual Plane), sorting a list of strings by that order, decimal
 * rendering of numbers and joining with a separator.
 */
module Strings {

  /** `a` sorts before or equal to `b`: character by character, a proper prefix first. */
  predicate LexLe(a: string, b: string)
    decreases |a|
  {
    |a| == 0 || (|b| > 0 && (a[0] < b[0] || (a[0] == b[0] && LexLe(a[1..], b[1..]))))
  }

  lemma {:induction false} LexLeReflexive(a: string)
    ensures LexLe(a, a)
    decreases |a|
  {
    if |a| > 0 {
      LexLeReflexive(a[1..]);
    }
  }

  lemma {:induction false} LexLeAntisymmetric(a: string, b: string)
    requires LexLe(a, b) && LexLe(b, a)
    ensures a == b
    decreases |a|
  {
    if |a| > 0 {
      LexLeAntisymmetric(a[1..], b[1..]);
      assert a == [a[0]] + a[1..];
      assert b == [b[0]] + b[1..];
    }
  }

  lemma {:induction false} LexLeTransitive(a: string, b: string, c: string)
    requires LexLe(a, b) && LexLe(b, c)
    ensures LexLe(a, c)
    decreases |a|
  {
    if |a| > 0 && a[0] == b[0] && b[0] == c[0] {
      LexLeTransitive(a[1..], b[1..], c[1..]);
    }
  }

  lemma {:induction false} LexLeTotal(a: string, b: string)
    ensures LexLe(a, b) || LexLe(b, a)
    decreases |a|
  {
    if |a| > 0 && |b| > 0 && a[0] == b[0] {
      LexLeTotal(a[1..], b[1..]);
    }
  }

  /**
   * Comparing two concatenations whose first parts have the same length:
   * the first parts decide unless they are equal.
   */
  lemma {:induction false} LexLeConcat(x1: string, y1: string, x2: string, y2: string)
    requires |x1| == |x2|
    ensures LexLe(x1 + y1, x2 + y2) <==> (x1 != x2 && LexLe(x1, x2)) || (x1 == x2 && LexLe(y1, y2))
    decreases |x1|
  {
    if |x1| > 0 {
      assert (x1 + y1)[0] == x1[0] && (x2 + y2)[0] == x2[0];
      assert (x1 + y1)[1..] == x1[1..] + y1;
      assert (x2 + y2)[1..] == x2[1..] + y2;
      LexLeConcat(x1[1..], y1, x2[1..], y2);
      if x1[0] == x2[0] {
        assert x1[1..] == x2[1..] <==> x1 == x2 by {
          assert x1 == [x1[0]] + x1[1..];
          assert x2 == [x2[0]] + x2[1..];
        }
      }
    } else {
      assert x1 == x2;
      assert x1 + y1 == y1 && x2 + y2 == y2;
    }
  }

  /** Ascending in the default JavaScript string order. */
  ghost predicate Sorted(s: seq<string>) {
    forall i, j :: 0 <= i < j < |s| ==> LexLe(s[i], s[j])
  }

  /** No string occurs twice. */
  ghost predicate NoDuplicates(s: seq<string>) {
    forall i, j :: 0 <= i < j < |s| ==> s[i] != s[j]
  }

  /** Inserts `x` into the sorted list `s` at its place. */
  function Insert(x: string, s: seq<string>): (r: seq<string>)
    requires Sorted(s)
    ensures Sorted(r)
    ensures multiset(r) == multiset(s) + multiset{x}
  {
    if |s| == 0 then [x]
    else if LexLe(x, s[0]) then
      forall j | 0 < j < |s| ensures LexLe(x, s[j]) {
        LexLeTransitive(x, s[0], s[j]);
      }
      ConsSorted(x, s);
      [x] + s
    else
      LexLeTotal(x, s[0]);
      var t := Insert(x, s[1..]);
      assert s == [s[0]] + s[1..];
      LowerBoundKept(s[0], x, s[1..], t);
      ConsSorted(s[0], t);
      [s[0]] + t
  }

  /** A string below every element of a sorted list can go in front of it. */
  lemma ConsSorted(h: string, t: seq<string>)
    requires Sorted(t)
    requires forall j :: 0 <= j < |t| ==> LexLe(h, t[j])
    ensures Sorted([h] + t)
  {
    var r := [h] + t;
    forall i, j | 0 <= i < j < |r| ensures LexLe(r[i], r[j]) {
      assert r[j] == t[j - 1];
      if i > 0 {
        assert r[i] == t[i - 1];
      }
    }
  }

  /** A lower bound of `s` and of `x` bounds any arrangement of `s` with `x` added. */
  lemma LowerBoundKept(b: string, x: string, s: seq<string>, t: seq<string>)
    requires LexLe(b, x)
    requires forall j :: 0 <= j < |s| ==> LexLe(b, s[j])
    requires multiset(t) == multiset(s) + multiset{x}
    ensures forall j :: 0 <= j < |t| ==> LexLe(b, t[j])
  {
    forall j | 0 <= j < |t| ensures LexLe(b, t[j]) {
      assert t[j] in multiset(t);
      if t[j] != x {
        assert t[j] in multiset(s);
        var k :| 0 <= k < |s| && s[k] == t[j];
      }
    }
  }

  /**
   * What `Array.prototype.sort()` without a comparator does to a list of
   * strings (insertion sort; the result is unique, see `SortedUnique`).
   */
  function Sort(s: seq<string>): (r: seq<string>)
    ensures Sorted(r)
    ensures multiset(r) == multiset(s)
  {
    if |s| == 0 then []
    else
      assert s == s[..|s| - 1] + [s[|s| - 1]];
      Insert(s[|s| - 1], Sort(s[..|s| - 1]))
  }

  /** Two sorted arrangements of one multiset start with the same string. */
  lemma SortedHeadsEqual(a: seq<string>, b: seq<string>)
    requires Sorted(a) && Sorted(b) && |a| > 0
    requires multiset(a) == multiset(b)
    ensures |b| > 0 && a[0] == b[0]
  {
    assert a[0] in multiset(b);
    var j :| 0 <= j < |b| && b[j] == a[0];
    assert b[0] in multiset(a);
    var i :| 0 <= i < |a| && a[i] == b[0];
    if j > 0 {
      assert LexLe(b[0], a[0]);
    } else {
      LexLeReflexive(b[0]);
    }
    if i > 0 {
      assert LexLe(a[0], b[0]);
    } else {
      LexLeReflexive(a[0]);
    }
    LexLeAntisymmetric(a[0], b[0]);
  }

  /** Dropping the first string keeps a list sorted and removes one copy from its multiset. */
  lemma SortedTail(a: seq<string>)
    requires Sorted(a) && |a| > 0
    ensures Sorted(a[1..])
    ensures multiset(a[1..]) == multiset(a) - multiset{a[0]}
  {
    assert a == [a[0]] + a[1..];
    assert multiset(a) == multiset{a[0]} + multiset(a[1..]);
  }

  /** A sorted arrangement of a multiset of strings is unique. */
  lemma {:induction false} SortedUnique(a: seq<string>, b: seq<string>)
    requires Sorted(a) && Sorted(b)
    requires multiset(a) == multiset(b)
    ensures a == b
    decreases |a|
  {
    if |a| == 0 {
      assert |b| == |multiset(b)| == 0;
    } else {
      SortedHeadsEqual(a, b);
      SortedTail(a);
      SortedTail(b);
      SortedUnique(a[1..], b[1..]);
      assert a == [a[0]] + a[1..];
      assert b == [b[0]] + b[1..];
    }
  }

  /** Sorting a list that is already sorted changes nothing. */
  lemma SortSorted(s: seq<string>)
    requires Sorted(s)
    ensures Sort(s) == s
  {
    SortedUnique(Sort(s), s);
  }

  /** Every element of the list except those equal to `x`, in order. */
  function RemoveAll(s: seq<string>, x: string): (r: seq<string>)
    ensures x !in r
    ensures forall y :: y != x ==> multiset(r)[y] == multiset(s)[y]
  {
    if |s| == 0 then []
    else
      assert s == [s[0]] + s[1..];
      if s[0] == x then RemoveAll(s[1..], x) else [s[0]] + RemoveAll(s[1..], x)
  }

  /** Removing elements keeps the remaining ones in their order. */
  lemma {:induction false} RemoveAllSorted(s: seq<string>, x: string)
    requires Sorted(s)
    ensures Sorted(RemoveAll(s, x))
    decreases |s|
  {
    if |s| > 0 {
      RemoveAllSorted(s[1..], x);
      var t := RemoveAll(s[1..], x);
      if s[0] != x {
        forall j | 0 <= j < |t| ensures LexLe(s[0], t[j]) {
          assert t[j] in multiset(t);
          assert t[j] in multiset(s[1..]);
          var k :| 0 <= k < |s[1..]| && s[1..][k] == t[j];
          assert s[k + 1] == t[j];
        }
      }
    }
  }

  /** The elements of `parts` with `sep` between neighbours (`Array.prototype.join`, PHP `implode`). */
  function Join(sep: string, parts: seq<string>): string {
    if |parts| == 0 then ""
    else if |parts| == 1 then parts[0]
    else parts[0] + sep + Join(sep, parts[1..])
  }

  /** A join starts with its first part. */
  lemma JoinStartsWithFirst(sep: string, parts: seq<string>)
    requires |parts| > 0
    ensures parts[0] <= Join(sep, parts)
  {
  }

  // ---------------------------------------------------------------------------
  // Decimal digits

  function Pow10(w: nat): (p: nat)
    ensures p >= 1
  {
    if w == 0 then 1 else 10 * Pow10(w - 1)
  }

  predicate IsDigit(c: char) {
    '0' <= c <= '9'
  }

  function DigitChar(n: nat): (c: char)
    requires n < 10
    ensures IsDigit(c)
  {
    ('0' as int + n) as char
  }

  function DigitValue(c: char): (n: nat)
    requires IsDigit(c)
    ensures n < 10 && DigitChar(n) == c
  {
    (c as int - '0' as int) as nat
  }

  /**
   * The decimal numeral of `n`, left-padded with zeros to at least `w`
   * digits (PHP's `j` is width 1, `Y` width 4; `toISOString` uses 2 and 4).
   */
  function Digits(n: nat, w: nat): (s: string)
    ensures forall i :: 0 <= i < |s| ==> IsDigit(s[i])
    ensures |s| >= 1
    decreases n + w
  {
    if w <= 1 && n < 10 then [DigitChar(n)]
    else Digits(n / 10, if w == 0 then 0 else w - 1) + [DigitChar(n % 10)]
  }

  /** The number a string of decimal digits denotes. */
  function DigitsValue(s: string): nat
    requires forall i :: 0 <= i < |s| ==> IsDigit(s[i])
  {
    if |s| == 0 then 0 else DigitsValue(s[..|s| - 1]) * 10 + DigitValue(s[|s| - 1])
  }

  lemma {:induction false} DigitsLength(n: nat, w: nat)
    requires 1 <= w && n < Pow10(w)
    ensures |Digits(n, w)| == w
    decreases w
  {
    if w > 1 {
      DigitsLength(n / 10, w - 1);
    }
  }

  lemma {:induction false} DigitsRoundTrip(n: nat, w: nat)
    ensures DigitsValue(Digits(n, w)) == n
    decreases n + w
  {
    var s := Digits(n, w);
    if !(w <= 1 && n < 10) {
      var p := Digits(n / 10, if w == 0 then 0 else w - 1);
      DigitsRoundTrip(n / 10, if w == 0 then 0 else w - 1);
      assert s[..|s| - 1] == p;
    }
  }

  lemma {:induction false} DigitsValueBound(s: string)
    requires forall i :: 0 <= i < |s| ==> IsDigit(s[i])
    ensures DigitsValue(s) < Pow10(|s|)
    decreases |s|
  {
    if |s| > 0 {
      DigitsValueBound(s[..|s| - 1]);
    }
  }

  /** A string of exactly `w` digits is the `w`-wide numeral of its value. */
  lemma {:induction false} DigitsCanonical(s: string)
    requires |s| >= 1
    requires forall i :: 0 <= i < |s| ==> IsDigit(s[i])
    ensures Digits(DigitsValue(s), |s|) == s
    decreases |s|
  {
    var n := DigitsValue(s);
    var last := DigitValue(s[|s| - 1]);
    var front := s[..|s| - 1];
    assert n / 10 == DigitsValue(front) && n % 10 == last;
    if |s| == 1 {
      assert front == [];
    } else {
      DigitsCanonical(front);
      assert s == front + [s[|s| - 1]];
    }
  }

  /** Same-width numerals sort as the numbers they denote. */
  lemma {:induction false} DigitsOrder(n: nat, m: nat, w: nat)
    requires 1 <= w && n < Pow10(w) && m < Pow10(w)
    ensures LexLe(Digits(n, w), Digits(m, w)) <==> n <= m
    decreases w
  {
    if w == 1 {
      assert Digits(n, w) == [DigitChar(n)] && Digits(m, w) == [DigitChar(m)];
      LexLeSingle(DigitChar(n), DigitChar(m));
    } else {
      var qn, qm := n / 10, m / 10;
      Pow10Prefix(n, w);
      Pow10Prefix(m, w);
      var pn, pm := Digits(qn, w - 1), Digits(qm, w - 1);
      var cn, cm := DigitChar(n % 10), DigitChar(m % 10);
      assert Digits(n, w) == pn + [cn];
      assert Digits(m, w) == pm + [cm];
      DigitsLength(qn, w - 1);
      DigitsLength(qm, w - 1);
      DigitsOrder(qn, qm, w - 1);
      DigitsOrder(qm, qn, w - 1);
      LexLeReflexive(pn);
      DigitsOrderStep(n, m, pn, pm);
    }
  }

  /** The last digit decides between numbers whose other digits agree. */
  lemma DigitsOrderStep(n: nat, m: nat, pn: string, pm: string)
    requires |pn| == |pm|
    requires LexLe(pn, pm) <==> n / 10 <= m / 10
    requires pn == pm <==> n / 10 == m / 10
    ensures LexLe(pn + [DigitChar(n % 10)], pm + [DigitChar(m % 10)]) <==> n <= m
  {
    AppendCharOrder(pn, pm, DigitChar(n % 10), DigitChar(m % 10));
    DigitCharOrder(n % 10, m % 10);
    LastDigitOrder(n, m);
  }

  lemma DigitCharOrder(a: nat, b: nat)
    requires a < 10 && b < 10
    ensures DigitChar(a) <= DigitChar(b) <==> a <= b
  {
  }

  lemma Pow10Prefix(n: nat, w: nat)
    requires 1 <= w && n < Pow10(w)
    ensures n / 10 < Pow10(w - 1)
  {
    var p := Pow10(w - 1);
    assert n < 10 * p;
  }

  /** Strings of one length with one more character: the prefix decides, then the character. */
  lemma AppendCharOrder(p: string, q: string, c: char, d: char)
    requires |p| == |q|
    ensures LexLe(p + [c], q + [d]) <==> (p != q && LexLe(p, q)) || (p == q && c <= d)
  {
    LexLeConcat(p, [c], q, [d]);
    LexLeSingle(c, d);
  }

  lemma LexLeSingle(c: char, d: char)
    ensures LexLe([c], [d]) <==> c <= d
  {
    assert [c][1..] == [] && [d][1..] == [];
  }

  lemma LastDigitOrder(n: nat, m: nat)
    ensures n <= m <==> n / 10 < m / 10 || (n / 10 == m / 10 && n % 10 <= m % 10)
  {
  }
}

=== FILE: widget.dfy ===
/**
 * The storefront widget: the subscribe-button click, the price reply, the
 * date-button click, the price summary and the confirm click. The two
 * copies of the script share this logic; `Variant` carries the points where
 * they differ.
 */
module Widget {
  import opened Options
  import opened Strings
  import opened Dates
  import opened Json
  import opened Selection
  import opened Calendar
  import opened Forms

  /** Where the two copies of the script behave differently. */
  datatype Variant = Variant(
    strictSymbolCheck: bool,    // symbol must be a non-blank string other than "undefined"
    nanGuard: bool,             // a NaN total is shown as "Error"
    firstMatchOnly: bool,       // `.first()` on the generic form fallbacks and on the button
    hiddenInputIsButton: bool,  // `input[name="add-to-cart"]` also counts as the button
    csvDatesField: bool,        // a second, comma-joined `fse_selected_dates` is appended
    closesModal: bool,          // the modal is closed right after the click; when false it stays open
                                // (the root copy's delayed `closeModal()` has no argument and throws)
    jsonInMarkup: bool)         // the JSON dates are pasted unescaped into `value="…"`

  /** food-subscription-engine/assets/js/food-subscription-engine-public.js */
  const Packaged := Variant(false, false, false, false, false, true, true)

  /**
   * assets/js/food-subscription-engine-public.js. Its only close is a
   * delayed `closeModal()` without the modal argument, which throws before
   * closing anything or removing the comma-joined field; the modal stays open.
   */
  const Root := Variant(true, true, true, true, true, false, true)

  /** The packaged copy with the dates written as the attribute's real value. */
  const PackagedCorrected := Packaged.(jsonInMarkup := false)

  /** The root copy with the dates written as the attribute's real value and no comma-joined field. */
  const RootCorrected := Root.(jsonInMarkup := false, csvDatesField := false)

  /** A JavaScript number as `parseFloat` leaves it. */
  datatype JsNumber = Num(value: real) | NaN

  /** The localized parameters (`fse_params.i18n`) the widget reads. */
  datatype Config = Config(currencySymbol: Option<string>, selectOptionMessage: string)

  /** The widget's variables between events. */
  datatype State = State(
    modalOpen: bool,
    productId: int,               // currentProductId, 0 when unset
    variationId: Option<string>,  // currentVariationId, None for a simple product
    unitPrice: JsNumber,          // currentProductPrice
    selection: seq<string>)       // selectedDates

  const Initial := State(false, 0, None, Num(0.0), [])

  const PriceErrorMessage := "Error fetching product price."
  const NoDatesMessage := "Please select at least one delivery date."
  const NoProductMessage := "Product ID not found. Please close the modal and try again."
  const NoFormMessage := "Could not identify the product form. Please try adding to cart normally."
  const NoButtonMessage := "Could not find Add to Cart button."

  // ---------------------------------------------------------------------------
  // Opening the modal

  /** The `variation_id` input of the button's form, if the product is variable. */
  datatype VariationInput = NoVariationInput | VariationInput(value: string)

  /** A variable product needs a chosen variation: not empty and not `'0'`. */
  predicate VariationChosen(input: VariationInput) {
    input.NoVariationInput? || (input.value != "" && input.value != "0")
  }

  /**
   * What the click reads through `$button.closest('form.cart')`: the form's
   * `variation_id` input when the button sits inside the cart form, and
   * nothing when it does not (an empty jQuery set finds no input).
   */
  function EnclosingVariationInput(insideForm: bool, formInput: VariationInput): (input: VariationInput)
    ensures !insideForm ==> input.NoVariationInput? && VariationChosen(input)
    ensures insideForm ==> input == formInput
  {
    if insideForm then formInput else NoVariationInput
  }

  function VariationOf(input: VariationInput): Option<string> {
    if input.NoVariationInput? then None else Some(input.value)
  }

  /** The AJAX request `fse_get_product_price`. */
  datatype PriceRequest = PriceRequest(productId: int, variationId: Option<string>)

  datatype Subscribe = Subscribe(state: State, alert: Option<string>, request: Option<PriceRequest>)

  /**
   * The subscribe-button click: it records the product and variation, then
   * either refuses (no variation chosen) or sends the price request; it
   * never opens the modal itself.
   */
  function ClickSubscribe(cfg: Config, s: State, productId: int, input: VariationInput): (r: Subscribe)
    ensures r.state == s.(productId := productId, variationId := VariationOf(input))
    ensures !VariationChosen(input) ==> r.alert == Some(cfg.selectOptionMessage) && r.request.None?
    ensures VariationChosen(input) ==> r.alert.None? && r.request == Some(PriceRequest(productId, VariationOf(input)))
  {
    var s' := s.(productId := productId, variationId := VariationOf(input));
    if !VariationChosen(input) then Subscribe(s', Some(cfg.selectOptionMessage), None)
    else Subscribe(s', None, Some(PriceRequest(productId, VariationOf(input))))
  }

  /** What the price request comes back with. */
  datatype PriceReply =
    | ReplySuccess(price: JsNumber)
    | ReplyFailure(message: Option<string>)
    | TransportError

  datatype Shown = Shown(state: State, alert: Option<string>)

  /**
   * The price reply: success opens the modal with the new unit price and an
   * empty selection; failure shows the server's message (or a default) and
   * changes nothing else.
   */
  function OnPriceReply(s: State, reply: PriceReply): (r: Shown)
    ensures reply.ReplySuccess? ==>
      r.alert.None? && r.state.modalOpen && r.state.selection == [] && r.state.unitPrice == reply.price
      && r.state.productId == s.productId && r.state.variationId == s.variationId
    ensures !reply.ReplySuccess? ==> r.state == s && r.alert.Some? && r.alert.value != ""
    ensures reply.ReplyFailure? && reply.message.Some? && reply.message.value != "" ==> r.alert == reply.message
    ensures !reply.ReplySuccess? && !(reply.ReplyFailure? && reply.message.Some? && reply.message.value != "")
            ==> r.alert == Some(PriceErrorMessage)
  {
    match reply
    case ReplySuccess(price) => Shown(s.(modalOpen := true, unitPrice := price, selection := []), None)
    case ReplyFailure(message) =>
      Shown(s, Some(if message.Some? && message.value != "" then message.value else PriceErrorMessage))
    case TransportError => Shown(s, Some(PriceErrorMessage))
  }

  // ---------------------------------------------------------------------------
  // Choosing dates

  /** A click on a day button; a disabled button does not fire. */
  function ClickDate(s: State, b: DayButton): (r: State)
    requires Valid(b.date)
    ensures b.disabled ==> r == s
    ensures !b.disabled ==> r == s.(selection := Toggle(s.selection, Iso(b.date)))
  {
    if b.disabled then s else s.(selection := Toggle(s.selection, Iso(b.date)))
  }

  /** `x` is the ISO text of a day that is not before `today`. */
  predicate Upcoming(x: string, today: Date) {
    ParseIso(x).Some? && !Before(ParseIso(x).value, today)
  }

  predicate AllUpcoming(selection: seq<string>, today: Date) {
    forall i :: 0 <= i < |selection| ==> Upcoming(selection[i], today)
  }

  /**
   * Clicking buttons rendered for `today` never puts a past day into the
   * selection.
   */
  lemma ClickDateKeepsUpcoming(s: State, b: DayButton, today: Date)
    requires AllUpcoming(s.selection, today)
    requires Valid(b.date) && 0 <= b.date.year <= 9999
    requires b.disabled <==> Before(b.date, today)
    ensures AllUpcoming(ClickDate(s, b).selection, today)
  {
    if !b.disabled {
      var sel := ClickDate(s, b).selection;
      IsoRoundTrip(b.date);
      forall i | 0 <= i < |sel| ensures Upcoming(sel[i], today) {
        assert sel[i] in sel;
        if sel[i] != Iso(b.date) {
          assert sel[i] in s.selection;
          var j :| 0 <= j < |s.selection| && s.selection[j] == sel[i];
        }
      }
    }
  }

  // ---------------------------------------------------------------------------
  // The price summary

  /** Characters `String.prototype.trim` strips. */
  predicate IsJsSpace(c: char) {
    c == ' ' || c == '\t' || c == '\n' || c == '\r' || c == '\U{000B}' || c == '\U{000C}'
    || c == '\U{00A0}' || c == '\U{1680}' || ('\U{2000}' <= c <= '\U{200A}')
    || c == '\U{2028}' || c == '\U{2029}' || c == '\U{202F}' || c == '\U{205F}'
    || c == '\U{3000}' || c == '\U{FEFF}'
  }

  /** `s.trim() === ''`. */
  predicate IsBlank(s: string) {
    forall i :: 0 <= i < |s| ==> IsJsSpace(s[i])
  }

  function AsciiLower(c: char): char {
    if 'A' <= c <= 'Z' then (c as int + 32) as char else c
  }

  /** `s.toLowerCase() === 'undefined'`. */
  predicate IsUndefinedWord(s: string) {
    |s| == 9 && forall i :: 0 <= i < 9 ==> AsciiLower(s[i]) == "undefined"[i]
  }

  /**
   * The currency symbol in front of the total: the configured one when the
   * copy accepts it, else `$`. Never empty; in the stricter copy never blank
   * and never the word "undefined".
   */
  function CurrencySymbol(v: Variant, configured: Option<string>): (symbol: string)
    ensures symbol == "$" || Some(symbol) == configured
    ensures symbol != ""
    ensures v.strictSymbolCheck ==> !IsBlank(symbol) && !IsUndefinedWord(symbol)
    ensures (configured.Some? && configured.value != "" && !IsBlank(configured.value)
             && !IsUndefinedWord(configured.value)) ==> symbol == configured.value
  {
    if configured.Some? && configured.value != ""
       && (!v.strictSymbolCheck || (!IsBlank(configured.value) && !IsUndefinedWord(configured.value)))
    then configured.value
    else
      assert !IsBlank("$") by { assert !IsJsSpace("$"[0]); }
      "$"
  }

  /**
   * The two copies show the same symbol except when the configured one is
   * a non-empty blank string or the word "undefined" in any case.
   */
  lemma SymbolCopiesAgree(configured: Option<string>)
    ensures CurrencySymbol(Packaged, configured) == CurrencySymbol(Root, configured)
            <==> !(configured.Some? && configured.value != ""
                   && (IsBlank(configured.value) || IsUndefinedWord(configured.value)))
  {
    if configured.Some? && configured.value != "" && IsBlank(configured.value) {
      assert !IsBlank("$") by {
        assert !IsJsSpace("$"[0]);
      }
    }
  }

  /** `#fse-calculated-price`: `--`, or symbol and total, or an error text. */
  datatype PriceText =
    | NoTotal                         // "--"
    | Total(symbol: string, amount: real)
    | ErrorTotal(symbol: string)      // symbol + "Error"
    | NaNTotal(symbol: string)        // symbol + "NaN"

  /** `updateSummaryAndPrice`: the displayed total for `count` selected dates. */
  function PriceDisplay(v: Variant, cfg: Config, unitPrice: JsNumber, count: nat): (t: PriceText)
    ensures count == 0 <==> t == NoTotal
    ensures count > 0 && unitPrice.Num? ==>
      t == Total(CurrencySymbol(v, cfg.currencySymbol), unitPrice.value * (count as real))
    ensures count > 0 && unitPrice.NaN? && v.nanGuard ==> t == ErrorTotal(CurrencySymbol(v, cfg.currencySymbol))
    ensures count > 0 && unitPrice.NaN? && !v.nanGuard ==> t == NaNTotal(CurrencySymbol(v, cfg.currencySymbol))
  {
    if count == 0 then NoTotal
    else
      var symbol := CurrencySymbol(v, cfg.currencySymbol);
      if unitPrice.Num? then Total(symbol, unitPrice.value * (count as real))
      else if v.nanGuard then ErrorTotal(symbol)
      else NaNTotal(symbol)
  }

  /** The summary of a state. */
  function Summary(v: Variant, cfg: Config, s: State): PriceText {
    PriceDisplay(v, cfg, s.unitPrice, |s.selection|)
  }

  /** Right after a successful price reply the summary shows `--`. */
  lemma SummaryAfterOpen(v: Variant, cfg: Config, s: State, price: JsNumber)
    ensures Summary(v, cfg, OnPriceReply(s, ReplySuccess(price)).state) == NoTotal
  {
  }

  /** A failed price lookup keeps the selection, and clicking again asks again. */
  lemma RetryAfterFailure(cfg: Config, s: State, reply: PriceReply, productId: int, input: VariationInput)
    requires !reply.ReplySuccess? && VariationChosen(input)
    ensures OnPriceReply(s, reply).state.selection == s.selection
    ensures ClickSubscribe(cfg, OnPriceReply(s, reply).state, productId, input).request
            == Some(PriceRequest(productId, VariationOf(input)))
  {
  }

  // ---------------------------------------------------------------------------
  // Confirming

  /** The decimal text of an id, as string concatenation writes it. */
  function IntText(n: int): string {
    if n < 0 then "-" + Digits(-n, 1) else Digits(n, 1)
  }

  /** JavaScript truthiness of the variation id. */
  predicate Truthy(v: Option<string>) {
    v.Some? && v.value != ""
  }

  /** The last resort: every `variations_form`, else every cart form (or the first of each). */
  function GenericForms(v: Variant, page: seq<CartForm>): (r: seq<nat>)
    ensures forall i :: i in r ==> i < |page|
    ensures Increasing(r)
    ensures r == [] <==> |page| == 0
    ensures v.firstMatchOnly ==> |r| <= 1
    ensures !v.firstMatchOnly && Select(page, VariationsForm) != [] ==> r == Select(page, VariationsForm)
    ensures v.firstMatchOnly && Select(page, VariationsForm) != [] ==> r == [Select(page, VariationsForm)[0]]
    ensures |page| > 0 ==> 0 in Select(page, AnyCartForm)
    ensures Select(page, VariationsForm) == [] && |page| > 0 ==>
      r == if v.firstMatchOnly then [Select(page, AnyCartForm)[0]] else Select(page, AnyCartForm)
  {
    var byClass := Select(page, VariationsForm);
    var all := Select(page, AnyCartForm);
    var zero: nat := 0;
    assert |page| > 0 ==> zero in all;
    assert byClass != [] ==> byClass[0] in byClass;
    assert all != [] ==> all[0] in all;
    if v.firstMatchOnly then
      (if byClass != [] then [byClass[0]] else if all != [] then [all[0]] else [])
    else
      (if byClass != [] then byClass else all)
  }

  /**
   * The form the confirm handler writes into: the forms holding the
   * product's add-to-cart value, else those holding the variation id, else
   * the generic fallback. It finds one exactly when the page has a cart form.
   */
  function LocateForms(v: Variant, page: seq<CartForm>, productId: int, variationId: Option<string>): (r: seq<nat>)
    ensures forall i :: i in r ==> i < |page|
    ensures Increasing(r)
    ensures Select(page, AddToCartValue(IntText(productId))) != [] ==> r == Select(page, AddToCartValue(IntText(productId)))
    ensures (Select(page, AddToCartValue(IntText(productId))) == [] && Truthy(variationId)
             && Select(page, VariationIdValue(variationId.value)) != [])
            ==> r == Select(page, VariationIdValue(variationId.value))
    ensures (Select(page, AddToCartValue(IntText(productId))) == []
             && (!Truthy(variationId) || Select(page, VariationIdValue(variationId.value)) == []))
            ==> r == GenericForms(v, page)
    ensures r == [] <==> |page| == 0
  {
    var byProduct := Select(page, AddToCartValue(IntText(productId)));
    var byVariation := if Truthy(variationId) then Select(page, VariationIdValue(variationId.value)) else [];
    if byProduct != [] then
      assert byProduct[0] in byProduct;
      byProduct
    else if byVariation != [] then
      assert byVariation[0] in byVariation;
      byVariation
    else GenericForms(v, page)
  }

  /**
   * The value an HTML parser gives an attribute written `value="` + raw +
   * `"` when `raw` holds no `&`: the text of `raw` before its first double
   * quote. (With `&` present the parser would also decode character
   * references; the JSON of day texts never holds one.)
   */
  function QuotedAttribute(raw: string): (value: string)
    ensures value <= raw
    ensures forall i :: 0 <= i < |value| ==> value[i] != '"'
    ensures (forall i :: 0 <= i < |raw| ==> raw[i] != '"') ==> value == raw
    ensures |value| < |raw| ==> raw[|value|] == '"'
  {
    if |raw| == 0 || raw[0] == '"' then ""
    else [raw[0]] + QuotedAttribute(raw[1..])
  }

  /**
   * The JSON dates field. As written, both copies build it as markup with
   * the JSON text between double quotes, so the posted value stops at the
   * JSON's first quote.
   */
  function DatesField(v: Variant, selection: seq<string>): Field {
    Field("fse_selected_dates",
          if v.jsonInMarkup then QuotedAttribute(EncodeStrings(selection)) else EncodeStrings(selection),
          true)
  }

  /** As written, any non-empty selection posts `[`, which does not decode. */
  lemma MarkupCutsDates(selection: seq<string>)
    requires |selection| > 0
    ensures DatesField(Packaged, selection).value == "["
    ensures DatesField(Root, selection).value == "["
    ensures DecodeJson("[") == None
  {
    var raw := EncodeStrings(selection);
    assert raw == "[" + EncodeItems(selection);
    assert raw[1] == '"';
    assert QuotedAttribute(raw[1..]) == "";
    assert "["[1..] == "";
  }

  /** With the value set as data, the posted text decodes back to the selection. */
  lemma CorrectedDatesDecode(v: Variant, selection: seq<string>)
    requires !v.jsonInMarkup
    ensures DecodeJson(DatesField(v, selection).value) == Some(StringsJson(selection))
  {
    DecodeEncode(selection);
  }

  const FlagField := Field("fse_is_subscription", "true", true)

  /** The root copy's extra field: the dates comma-joined, without the custom class. */
  function CsvDatesField(selection: seq<string>): Field {
    Field("fse_selected_dates", Join(",", selection), false)
  }

  /** The fields without the class `fse-custom-data-field`, in order. */
  function PlainFields(fields: seq<Field>): (r: seq<Field>)
    ensures forall i :: 0 <= i < |r| ==> !r[i].custom
    ensures |r| <= |fields|
  {
    if |fields| == 0 then []
    else (if fields[0].custom then [] else [fields[0]]) + PlainFields(fields[1..])
  }

  /** The fields with the class `fse-custom-data-field`, in order. */
  function CustomFields(fields: seq<Field>): (r: seq<Field>)
    ensures forall i :: 0 <= i < |r| ==> r[i].custom
  {
    if |fields| == 0 then []
    else (if fields[0].custom then [fields[0]] else []) + CustomFields(fields[1..])
  }

  lemma {:induction false} PlainFieldsAppend(a: seq<Field>, b: seq<Field>)
    ensures PlainFields(a + b) == PlainFields(a) + PlainFields(b)
    decreases |a|
  {
    if |a| > 0 {
      assert (a + b)[1..] == a[1..] + b;
      PlainFieldsAppend(a[1..], b);
    } else {
      assert a + b == b;
    }
  }

  lemma {:induction false} CustomFieldsAppend(a: seq<Field>, b: seq<Field>)
    ensures CustomFields(a + b) == CustomFields(a) + CustomFields(b)
    decreases |a|
  {
    if |a| > 0 {
      assert (a + b)[1..] == a[1..] + b;
      CustomFieldsAppend(a[1..], b);
    } else {
      assert a + b == b;
    }
  }

  lemma SplitFieldsAppend(a: seq<Field>, b: seq<Field>)
    ensures PlainFields(a + b) == PlainFields(a) + PlainFields(b)
    ensures CustomFields(a + b) == CustomFields(a) + CustomFields(b)
  {
    PlainFieldsAppend(a, b);
    CustomFieldsAppend(a, b);
  }

  lemma {:induction false} PlainFieldsIdempotent(fields: seq<Field>)
    ensures PlainFields(PlainFields(fields)) == PlainFields(fields)
    ensures CustomFields(PlainFields(fields)) == []
    decreases |fields|
  {
    if |fields| > 0 {
      PlainFieldsIdempotent(fields[1..]);
      var head := if fields[0].custom then [] else [fields[0]];
      SplitFieldsAppend(head, PlainFields(fields[1..]));
    }
  }

  /** Removes the old custom fields, then appends the dates and the flag. */
  function Inject(f: CartForm, dates: Field): CartForm {
    f.(fields := PlainFields(f.fields) + [dates, FlagField])
  }

  /**
   * After injecting, the custom fields are exactly the new dates field and
   * the flag, the other fields are kept in order, and injecting again
   * replaces rather than accumulates.
   */
  lemma InjectFields(f: CartForm, dates: Field, later: Field)
    requires dates.custom
    ensures CustomFields(Inject(f, dates).fields) == [dates, FlagField]
    ensures PlainFields(Inject(f, dates).fields) == PlainFields(f.fields)
    ensures Inject(Inject(f, dates), later) == Inject(f, later)
  {
    var tail := [dates, FlagField];
    PlainFieldsIdempotent(f.fields);
    SplitFieldsAppend(PlainFields(f.fields), tail);
    assert tail[1..][1..] == [];
    assert CustomFields(tail[1..]) == [FlagField] + CustomFields(tail[1..][1..]);
    assert CustomFields(tail) == tail;
    assert PlainFields(tail[1..]) == PlainFields(tail[1..][1..]);
    assert PlainFields(tail) == [];
  }

  predicate HasAddToCart(v: Variant, f: CartForm) {
    f.hasButton || (v.hiddenInputIsButton && HasFieldNamed(f, "add-to-cart"))
  }

  /** The located forms that hold an add-to-cart control, in document order. */
  function ButtonForms(v: Variant, page: seq<CartForm>, targets: seq<nat>): (r: seq<nat>)
    requires forall i :: i in targets ==> i < |page|
    ensures forall i :: i in r <==> i in targets && HasAddToCart(v, page[i])
  {
    if |targets| == 0 then []
    else
      assert forall i :: i in targets[1..] ==> i in targets;
      assert targets[0] in targets;
      (if HasAddToCart(v, page[targets[0]]) then [targets[0]] else []) + ButtonForms(v, page, targets[1..])
  }

  datatype Confirmation = Confirmation(state: State, alert: Option<string>, page: seq<CartForm>, clicked: seq<nat>)

  /**
   * The fields a located form ends with: the injected ones and, in the root
   * copy once a button is found, the comma-joined dates after them.
   */
  function ConfirmedFields(v: Variant, f: CartForm, selection: seq<string>, clicked: bool): seq<Field> {
    Inject(f, DatesField(v, selection)).fields
    + (if v.csvDatesField && clicked then [CsvDatesField(selection)] else [])
  }

  /** Whatever else is appended, the custom fields are the dates field and the flag. */
  lemma ConfirmedCustomFields(v: Variant, f: CartForm, selection: seq<string>, clicked: bool)
    ensures CustomFields(ConfirmedFields(v, f, selection, clicked)) == [DatesField(v, selection), FlagField]
  {
    var dates := DatesField(v, selection);
    InjectFields(f, dates, dates);
    if v.csvDatesField && clicked {
      SplitFieldsAppend(Inject(f, dates).fields, [CsvDatesField(selection)]);
      assert CustomFields([CsvDatesField(selection)]) == [];
    } else {
      assert ConfirmedFields(v, f, selection, clicked) == Inject(f, dates).fields;
    }
  }

  /** The page with the located forms rewritten. */
  function WriteForms(v: Variant, page: seq<CartForm>, targets: seq<nat>, selection: seq<string>, clicked: bool): (r: seq<CartForm>)
    ensures |r| == |page|
    ensures forall i :: 0 <= i < |page| ==>
      r[i] == if i in targets then page[i].(fields := ConfirmedFields(v, page[i], selection, clicked)) else page[i]
  {
    seq(|page|, i requires 0 <= i < |page| =>
      if i in targets then page[i].(fields := ConfirmedFields(v, page[i], selection, clicked)) else page[i])
  }

  /**
   * The confirm click. It refuses without dates, without a product id or
   * without a cart form, leaving the page alone; otherwise it rewrites the
   * located forms' custom fields (even when no button is then found) and
   * clicks the add-to-cart control.
   */
  function Confirm(v: Variant, s: State, page: seq<CartForm>): (c: Confirmation)
    ensures |s.selection| == 0 ==> c == Confirmation(s, Some(NoDatesMessage), page, [])
    ensures |s.selection| > 0 && s.productId == 0 ==> c == Confirmation(s, Some(NoProductMessage), page, [])
    ensures |s.selection| > 0 && s.productId != 0 && |page| == 0 ==> c == Confirmation(s, Some(NoFormMessage), page, [])
    ensures |s.selection| > 0 && s.productId != 0 && |page| > 0 ==>
      var targets := LocateForms(v, page, s.productId, s.variationId);
      && c.page == WriteForms(v, page, targets, s.selection, c.alert.None?)
      && (forall i :: i in c.clicked ==> i in targets && HasAddToCart(v, page[i]))
      && (c.alert.None? <==> c.clicked != [])
      && (c.alert.Some? ==> c.alert == Some(NoButtonMessage))
      && (c.clicked == [] <==> ButtonForms(v, page, targets) == [])
      && (!v.firstMatchOnly ==> c.clicked == ButtonForms(v, page, targets))
      && (v.firstMatchOnly && c.clicked != [] ==> c.clicked == [ButtonForms(v, page, targets)[0]])
      && (c.state.modalOpen <==> s.modalOpen && !(v.closesModal && c.clicked != []))
    ensures v.firstMatchOnly ==> |c.clicked| <= 1
    ensures c.state.selection == s.selection && c.state.productId == s.productId
            && c.state.variationId == s.variationId && c.state.unitPrice == s.unitPrice
  {
    if |s.selection| == 0 then Confirmation(s, Some(NoDatesMessage), page, [])
    else if s.productId == 0 then Confirmation(s, Some(NoProductMessage), page, [])
    else
      var targets := LocateForms(v, page, s.productId, s.variationId);
      if targets == [] then Confirmation(s, Some(NoFormMessage), page, [])
      else
        var withButton := ButtonForms(v, page, targets);
        if withButton == [] then
          Confirmation(s, Some(NoButtonMessage), WriteForms(v, page, targets, s.selection, false), [])
        else
          assert withButton[0] in withButton;
          var clicked := if v.firstMatchOnly then [withButton[0]] else withButton;
          Confirmation(s.(modalOpen := s.modalOpen && !v.closesModal), None,
                       WriteForms(v, page, targets, s.selection, true), clicked)
  }

  /**
   * After a confirm click that got past its checks, every located form
   * carries exactly one custom dates field and one custom flag, and every
   * other form is untouched.
   */
  lemma ConfirmInjectsOnce(v: Variant, s: State, page: seq<CartForm>, i: nat)
    requires |s.selection| > 0 && s.productId != 0 && i < |page|
    ensures var c := Confirm(v, s, page);
      && |c.page| == |page|
      && (i in LocateForms(v, page, s.productId, s.variationId) ==>
            CustomFields(c.page[i].fields) == [DatesField(v, s.selection), FlagField])
      && (i !in LocateForms(v, page, s.productId, s.variationId) ==> c.page[i] == page[i])
  {
    var c := Confirm(v, s, page);
    ConfirmedCustomFields(v, page[i], s.selection, c.alert.None?);
  }
}
